=== FILE: README.md ===
# Brick breaker: a Dafny model of the game logic

This project models the discrete game logic of a single-file raylib
brick-breaker (`main.c`): the level layout decoder, brick-hit resolution
with score and combo, the ball and power-up slot pools, life loss and
power-up effects, the speed-modifier countdown, the paddle clamp and width
easing, and the Menu / Play / Pause / Clear / Over state machine with its
one-frame Play step in the program's own order.

Geometry, randomness, audio playback and drawing are outside the model.
What the geometry decides each frame reaches the model as input. For each
ball slot it says whether the ball fell out, whether it touched the paddle
moving down, and which bricks it overlaps. For each power-up slot it says
whether the power-up fell out and whether it touched the paddle. Floats are
modelled as `real`; "## Left out" says what that leaves unmodelled.

Files (modules):

- `options.dfy` (`Options`): the optional value returned by the slot and
  brick searches.
- `counting.dfy` (`Counting`): counting elements of a sequence that
  satisfy a predicate.
- `entities.dfy` (`Config`, `Entities`): the constants and the records for
  bricks, balls and power-ups.
- `layout.dfy` (`Layout`): the three 8×12 level tables and the decoder
  `InitLevel`.
- `motion.dfy` (`Speed`, `PaddleControl`): the speed multipliers and the
  speed countdown; `ClampFloat` and the paddle step.
- `slots.dfy` (`Slots`): `SpawnPowerup`, `ResetBalls`, the MULTIBALL
  activation and the launch key.
- `world.dfy` (`Worlds`): the gameplay record and its invariant
  `Consistent`. The invariant says the breakable counter equals the number
  of standing non-solid bricks.
- `hits.dfy` (`Hits`): the ball pass, meaning the first overlapped brick
  and the hit outcome.
- `effects.dfy` (`Effects`): ball loss, power-up effects and the power-up
  pass.
- `game.dfy` (`Game`): sessions, the menu, `StartGame`, `PlayFrame` and
  `Step`.
- `laws.dfy` (`GameLaws`): frame-level properties and the reachable-state
  invariant `Valid`.

Behaviour of the code that the model keeps:

- Level codes 4, 5, 6 and 7 give DEATH, SLOW, LIFE and FAST bricks
  (main.c:273-284).
- The paddle moves, and eases its width toward the target, only in frames
  where no ball rests on it (main.c:483-494). While a ball is stuck, a
  picked-up EXTEND therefore does not widen the paddle until launch.
- The easing step is `width += (target - width) * 8 * dt`. This overshoots
  the target when a frame is longer than 1/8 s. `PaddleControl.LongFrameOvershoots`
  shows an example; `PaddleControl.EaseNeverOvershoots` shows it cannot
  happen for shorter frames.
- `LevelSpeedMult` treats every level `<= 1` as level 1. `InitLevel`, by
  contrast, loads the third table for anything but 1 and 2. Level 0 would
  therefore get the easy speed on the hard layout. The menu only ever
  selects 1 to 3, and `GameLaws.Valid` keeps both the selected level and
  the level being played in 1 to 3, so this cannot happen.
- Only two sounds can ever play. These are game over and level clear. The
  hit, break and power-up sound objects are never loaded, so their
  `frameCount` stays 0 and their guards never pass (main.c:524, 595, 664).
- Screen assignments in a Play frame overwrite each other in program order.
  P sets Pause and the frame still runs. A lost last ball or a DEATH pickup
  sets Over. The level-clear check runs last, so it can replace Over with
  Clear. A LIFE pickup after a game-ending loss in the same frame raises the
  lives again but leaves the screen on Over.
- Lives can become negative: a DEATH pickup in the frame that already took
  the last life takes another.

## Model

| member | source | states |
|---|---|---|
| PaddleControl.ClampFloat | main.c:87-93 | the result lies in [lo, hi], equals v when v is already in range, and is always one of v, lo, hi |
| PaddleControl.ClampMonotone | main.c:87-93 | clamping preserves order |
| PaddleControl.ClampIdempotent | main.c:87-93 | clamping twice is clamping once |
| Speed.LevelSpeedMult | main.c:103-109 | 0.85 exactly for levels <= 1, 0.95 exactly for level 2, 1.05 exactly for levels >= 3 |
| Speed.SpeedItemMult | main.c:111-117 | 0.7 exactly for a negative state, 1.35 exactly for a positive one, 1.0 exactly for zero |
| Speed.LevelSpeedMonotone | main.c:103-109 | a higher level is never slower |
| Speed.SpeedItemMonotone | main.c:111-117 | a higher speed state is never slower |
| Speed.BallSpeed | main.c:496-498 | the ball speed stays between the slowest and fastest multiplier products |
| Speed.BallSpeedMonotone | main.c:496-498 | ball speed is monotone in level and speed state together |
| Speed.Boost | main.c:678-685 | SLOW or FAST sets the state to -1 or +1 with the full 10 s timer |
| Speed.Tick | main.c:697-703 | a running timer counts down by dt; reaching zero restores the normal state; an idle timer is untouched; validity is preserved |
| Speed.ExpiryRestoresNormalSpeed | main.c:697-703 | the frame a modifier expires, the ball is back at the level's base speed |
| Speed.ExpiresWithin | main.c:697-703 | any modifier is gone after n frames of dt once n*dt reaches its timer |
| Speed.NormalIsStable | main.c:697-703 | without a modifier, ticking changes nothing |
| PaddleControl.ResetPaddle | main.c:353-355 | a base-width paddle centred in the field, with base target |
| PaddleControl.MoveIntent | main.c:484-488 | -1 when only left is held, +1 when only right, 0 when both or neither |
| PaddleControl.Ease | main.c:492 | for frames with 8·dt in [0, 1] one easing step moves the width toward the target and never past it; a settled width stays; a zero-length frame changes nothing |
| PaddleControl.MovePaddle | main.c:483-494 | the target is kept; a paddle no wider than the field ends inside it; at a settled width LEFT never moves it right and RIGHT never left, and the move is exactly intent × 520 × dt when that stays in the field; with no key and a settled width the paddle does not move |
| PaddleControl.Lerp | main.c:492 | one easing step from a toward t with factor in [0, 1] stays between a and t |
| PaddleControl.EaseNeverOvershoots | main.c:492 | with frames of at most 1/8 s the width moves toward its target and never past it |
| PaddleControl.LongFrameOvershoots | main.c:492 | a 1/4 s frame takes the width past its extended target |
| PaddleControl.MoveKeepsSane | main.c:483-494 | with frames of at most 1/8 s the width stays between base and extended and the paddle stays in the field |
| Slots.FirstInactive | main.c:191-192 | the lowest free power-up slot at or after the start, or none when all are in use |
| Slots.SpawnPowerup | main.c:189-201 | the lowest inactive slot becomes active with the given type and nothing else changes; a full pool is unchanged; the active count rises by one exactly when a slot was free |
| Slots.ResetBalls | main.c:132-143 | exactly ball 0 is active, and it rests on the paddle |
| Slots.ActivateIdle | main.c:668-677 | every idle ball becomes active and in flight, active balls are untouched, all slots end active and the gain equals the idle count |
| Slots.LaunchStuck | main.c:500-506 | no ball changes activity and no active ball is left stuck |
| Layout.TablesWellFormed | main.c:205-254 | each compiled-in table is 8 rows of 12 codes, all in 0..8 |
| Layout.Table | main.c:205-254 | whichever table a level selects is 8 rows of 12 codes, all in 0..8 |
| Layout.Code | main.c:259-262 | the cell code read for a row and column is in 0..8 |
| Layout.PowerCode | main.c:267-284 | each power type has its own code among 2..7 |
| Layout.PowerCodeInjective | main.c:267-284 | no two power types share a code |
| Layout.DecodeCell | main.c:262-289 | alive iff code > 0; solid iff code = 8; power brick iff code in 2..7 with the type whose code it is; otherwise MULTIBALL as default type; hp = max hp = 1 |
| Layout.DecodeThenEncode | main.c:262-289 | decoding any code 0..8 gives a fresh brick that encodes back to the same code |
| Layout.EncodeThenDecode | main.c:262-289 | every fresh brick is the decoding of its code |
| Layout.DecodePrefix | main.c:256-297 | the first n bricks are the decoded cells in row-major order and the counter is their number of breakable bricks |
| Layout.InitLevel | main.c:203-298 | 96 bricks; brick r*12+c is the decoding of cell (r, c); the breakable counter equals both the number of breakable cells of the table and the number of breakable bricks |
| Layout.CellIndex | main.c:261 | brick index r*12+c names row r and column c |
| Layout.BreakablePositions | main.c:293-295 | the breakable bricks of a decoded grid sit exactly at its non-empty, non-solid cells |
| Layout.LoadedBricksEncodeTheirCodes | main.c:259-289 | every loaded brick is fresh and encodes back to its table cell |
| Layout.OtherLevelsLoadThirdTable | main.c:238-248 | any level other than 1 or 2 loads the same bricks as level 3 |
| Layout.EveryLevelHasBreakableBricks | main.c:293-295 | every level starts with at least one breakable brick |
| Hits.FirstHit | main.c:561-565 | the scan returns the first standing overlapped brick at or after its start, or none if there is no such brick |
| Hits.FirstHitIsFirst | main.c:561-565 | a scan from 0 finds j exactly when j is the lowest-index standing overlapped brick |
| Hits.HitBrick | main.c:581-614 | solid: +10 and nothing else; last hit point: the brick dies, the counter drops by 1, +100+30*combo, combo+1, a power brick spawns its own type; otherwise: hp-1 and +40; other bricks untouched; score strictly rises; the invariant is kept |
| Hits.OneHitKills | main.c:582-585 | with all bricks at one hit point, every breakable hit destroys its brick and takes one off the counter |
| Hits.Bounce | main.c:541-558 | a ball below the field is switched off and a paddle bounce sets the combo to 0; nothing else changes |
| Hits.Resolve | main.c:560-617 | with no standing brick overlapped nothing changes; otherwise only the first one changes and never comes back, scoring +10 (solid), +40 (dent) or +100+30×combo with combo+1 (kill), and a killed power brick releases its power-up |
| Hits.UpdateBall | main.c:508-624 | an idle or stuck ball changes nothing; a ball that falls out is switched off; a paddle bounce resets the combo to 0, so afterwards it is at most 1 and 1 only after a +100 kill; only the first overlapped standing brick can change, and no brick comes back; that brick scores +10 (solid), +40 (dent) or +100+30×combo with combo+1 (kill), at the combo left by the paddle test, and a killed power brick spawns its power-up while any other outcome leaves the power-up slots alone; with no brick overlapped the score, bricks and power-ups are unchanged; a ball that touches neither paddle nor brick changes only itself |
| Hits.BallsFrom | main.c:508-624 | after the pass a ball is active exactly when it was active and either rests on the paddle or did not fall out; stuck balls are untouched; the score never falls and the invariant is kept |
| Hits.BallsFromBricks | main.c:508-624 | across the pass destroyed bricks stay destroyed; a brick changes only if it was standing and some ball in flight from the start slot on overlapped it; if every ball in flight touches neither the paddle nor a standing brick, only the balls change |
| Effects.LoseBall | main.c:626-648 | with no ball active: one life less and combo 0; over iff no life is left; otherwise ball 0 back on a base, centred paddle with normal speed; with a ball active nothing changes |
| Effects.ApplyPower | main.c:666-693 | EXTEND sets the target width to 192; MULTIBALL fills every ball slot; SLOW and FAST set the modifier; LIFE adds a life; DEATH takes one and ends the game iff none is left; only DEATH can end it |
| Effects.UpdatePowerup | main.c:650-695 | an inactive slot changes nothing; a fallen power-up is dropped with no effect; a caught one is dropped and its effect applied once; no effect takes a ball out of play, shrinks an extended target, or adds a life except LIFE; a caught DEATH on the last life ends the game |
| Effects.PowerupsFrom | main.c:650-695 | after the pass a slot is active exactly when it was active and its power-up neither fell out nor was caught, with its type kept; the game can end only through a caught DEATH power-up; with nothing caught only the power-up slots change; balls in play stay in play, an extended target stays extended, and lives rise only through a caught LIFE; score, bricks and combo are untouched; a sane paddle is kept |
| Effects.MultiballFillsBalls | main.c:668-677 | a MULTIBALL caught anywhere in the pass leaves every ball slot active at its end |
| Effects.ExtendWidens | main.c:666-667 | an EXTEND caught anywhere in the pass leaves the paddle's target at the extended width at its end |
| Effects.DeathOnLastLifeEnds | main.c:686-692 | a DEATH caught with at most one life, with no LIFE caught in the pass, ends the game |
| Game.Initial | main.c:370-383 | the program starts on the menu with level 1 selected, score 0, 3 lives, combo 0 and a consistent world |
| Game.SelectUp | main.c:405-409 | UP selects the previous level, wrapping 1 to 3 |
| Game.SelectDown | main.c:410-414 | DOWN selects the next level, wrapping 3 to 1 |
| Game.SelectUpDownInverse | main.c:405-414 | UP and DOWN undo each other on levels 1..3 |
| Game.SelectionCycles | main.c:405-414 | three UPs, or three DOWNs, return to the same level |
| Game.MenuSelect | main.c:399-414 | the selection stays in 1..3; key 1, 2 or 3 alone selects that level; UP alone applies SelectUp and DOWN alone SelectDown; UP and DOWN together cancel; with no key it is unchanged |
| Game.StartGame | main.c:440-457 | Play on the chosen level with score 0, 3 lives, combo 0, normal speed, reset paddle, the level's bricks, one ball on the paddle and every power-up slot emptied |
| Game.Prepare | main.c:483-506 | the paddle moves only when no ball is stuck; the launch key leaves no ball stuck, so a ball is in flight afterwards exactly when it was in play and either in flight or launched; nothing else changes |
| Game.BallPhase | main.c:483-624 | the paddle moves only when no ball is stuck; after the launch key and the ball pass no ball is active exactly when every ball in play was, or was launched, in flight and fell out; lives are untouched |
| Game.BallPhaseBricks | main.c:483-624 | destroyed bricks stay destroyed; a brick changes only if it was standing and a ball in flight or launched overlapped it; if no moving ball touches the paddle or a standing brick, bricks, score, combo and power-ups are unchanged |
| Game.GameOverSounds | main.c:636-692 | one game-over sound per game-ending event of the frame, and no clear sound among them |
| Game.FinishFrame | main.c:626-722 | after the ball pass the frame ends on Play, Pause, Clear or Over; on Clear exactly when no breakable brick is left and exactly when the clear sound plays; Over always plays the game-over sound, and that sound means Over or Clear; Pause exactly when P was pressed and the game neither ended nor cleared; the selected level is kept |
| Game.PlayFrame | main.c:470-723 | the frame ends on Clear exactly when no breakable brick is left, otherwise on Play, Pause or Over; losing every ball on the last life ends on Over or Clear with the game-over sound; with no power-up caught a life goes exactly when every ball is lost; the score never falls and the invariant is kept |
| Game.Step | main.c:392-470 | on the menu the selected level after the frame is `MenuSelect` of the old one under that frame's keys; Menu without ENTER stays on Menu with the world unchanged; Pause keeps the world and returns to Play exactly on P; Over and Clear keep the world and return to Menu exactly on ENTER; a Play frame ends on Play, Pause, Clear or Over; only Play frames make sounds |
| GameLaws.InitialValid | main.c:370-383 | the starting session satisfies the reachable-state invariant, which keeps the selected and the played level in 1..3 |
| GameLaws.PlayFrameKeepsPlayable | main.c:626-722 | a frame that stays on Play or Pause leaves a life, a breakable brick and a ball in play |
| GameLaws.StepPreservesValid | main.c:392-723 | every step keeps the reachable-state invariant |
| GameLaws.PauseStillRunsFrame | main.c:471-473 | pressing P changes neither the world nor the sounds of that frame, only Play into Pause |
| GameLaws.FinishFrameIgnoresPause | main.c:471-473 | after the ball pass P changes neither the world nor the sounds, only a Play ending into Pause |
| GameLaws.PauseFreezesWorld | main.c:458-461 | while paused the world is frozen and only P returns to Play |
| GameLaws.ScoreNeverDecreases | main.c:581-614 | outside ENTER on the menu, no step lowers the score |
| GameLaws.NoLivesEndsTheGame | main.c:633-722 | a Play frame that leaves no life ends on Over, or on Clear if the last breakable brick went in the same frame |
| GameLaws.QuietFrameOnlyTicksSpeed | main.c:697-703 | with no ball lost and no power-up caught, the speed modifier after a Play frame is the old one counted down by the frame time |
| GameLaws.DeathOnLastLifeEndsGame | main.c:626-722 | from any world the ball pass leaves with at most one life, a DEATH caught with no LIFE caught ends the frame on Over, or on Clear, and plays the game-over sound |
| GameLaws.ClearSoundMarksClear | main.c:718-722 | the clear sound plays exactly when the frame ends on Clear, and it is the frame's last sound |
| GameLaws.OverSoundMarksOver | main.c:636-692 | every frame ending on Over plays the game-over sound, and a frame that plays it ends on Over or Clear |
| GameLaws.PaddleStaysSane | main.c:483-494 | with frames of at most 1/8 s every step keeps the paddle width between base and extended and the paddle in the field |
| GameLaws.EnterStartsSelectedLevel | main.c:440-457 | ENTER on the menu starts the highlighted level with score 0 and 3 lives |

## Left out

- Drawing, fonts, stars, brick colours (`BrickColor`), the HUD and screen shake: presentation only.
- Audio device set-up, music streaming and sound volumes. A frame returns the sound tags it asks for. Whether the audio device opened (`audio_ok`) is not modelled.
- Particles (`SpawnParticles` and the particle update): cosmetic, random and float-based.
- Ball and power-up motion, wall reflection, circle–rectangle overlap, `NormalizeSafe`, the paddle bounce angle and the re-step after a brick bounce. These are float geometry; their outcomes are frame inputs. Power-ups hold still while a ball is stuck. This is part of that geometry.
- `LaunchBall`'s random launch angle. Only its effect on the stuck flag is modelled.
- Mouse clicks on the menu buttons. Their effect is the ENTER path for the clicked level.
- Brick rectangle coordinates and sizes: float layout arithmetic.
- The 32-bit `int` width of score and lives. Both are unbounded here. ENTER zeroes the score and Clear leads only back to the menu, so every game plays one level. Brick kills in a level add a bounded amount; the only unbounded source is +10 per solid-brick hit, so 32-bit overflow would need about 215 million of them in one game. Lives grow only by LIFE pickups, at most one per code-6 brick, and cannot overflow.
- The ball's position on a stuck paddle, and the paddle's `y` and height: geometry.
- Window handling, frame timing and the `dt` source. `dt` is an input.
- Float rounding. Floats are modelled as exact `real` values, so no rounding happens in positions, widths, timers or multipliers.
- Speed.LevelSpeedMult: returns the exact reals 0.85, 0.95 and 1.05; the program returns the nearest `float` values.
- Speed.SpeedItemMult: returns the exact reals 0.7, 1.35 and 1.0; the program returns the nearest `float` values.
- Speed.ExpiresWithin: a statement about exact subtraction; with `float` timers the frame count can differ by rounding.

=== FILE: counting.dfy ===
/** Counting the elements of a sequence that satisfy a predicate. The game
    keeps several such counts over its fixed slot arrays: breakable bricks,
    active balls, active power-up slots. */
module Counting {

  /** The number of elements of `s` that satisfy `p`, counted from the back. */
  function Count<T>(s: seq<T>, p: T -> bool): (n: nat)
    ensures n <= |s|
  {
    if s == [] then 0
    else Count(s[..|s| - 1], p) + (if p(s[|s| - 1]) then 1 else 0)
  }

  /** The positions of `s` whose element satisfies `p`: the reference
      definition that `Count` is measured against. */
  ghost function Positions<T>(s: seq<T>, p: T -> bool): set<int>
  {
    set i | 0 <= i < |s| && p(s[i])
  }

  /** `Count` is the cardinality of the set of satisfying positions. */
  lemma {:induction false} CountIsCardinality<T>(s: seq<T>, p: T -> bool)
    ensures Count(s, p) == |Positions(s, p)|
  {
    if s == [] {
      assert Positions(s, p) == {};
    } else {
      var n := |s| - 1;
      var front := s[..n];
      CountIsCardinality(front, p);
      assert forall i :: 0 <= i < n ==> front[i] == s[i];
      if p(s[n]) {
        assert Positions(s, p) == Positions(front, p) + {n};
      } else {
        assert Positions(s, p) == Positions(front, p);
      }
    }
  }

  /** Overwriting one element changes the count only by that element's
      contribution. */
  lemma {:induction false} CountUpdate<T>(s: seq<T>, k: int, x: T, p: T -> bool)
    requires 0 <= k < |s|
    ensures Count(s[k := x], p)
            == Count(s, p) - (if p(s[k]) then 1 else 0) + (if p(x) then 1 else 0)
  {
    var n := |s| - 1;
    var t := s[k := x];
    if k == n {
      assert t[..n] == s[..n];
    } else {
      assert t[..n] == s[..n][k := x];
      CountUpdate(s[..n], k, x, p);
    }
  }

  /** Every element satisfies `p` exactly when all of them are counted. */
  lemma {:induction false} CountAll<T>(s: seq<T>, p: T -> bool)
    ensures Count(s, p) == |s| <==> forall i :: 0 <= i < |s| ==> p(s[i])
  {
    if s != [] {
      var n := |s| - 1;
      CountAll(s[..n], p);
      assert forall i :: 0 <= i < n ==> s[..n][i] == s[i];
    }
  }

  /** No element satisfies `p` exactly when the count is zero. */
  lemma {:induction false} CountNone<T>(s: seq<T>, p: T -> bool)
    ensures Count(s, p) == 0 <==> forall i :: 0 <= i < |s| ==> !p(s[i])
  {
    if s != [] {
      var n := |s| - 1;
      CountNone(s[..n], p);
      assert forall i :: 0 <= i < n ==> s[..n][i] == s[i];
    }
  }

  /** Two complementary predicates split the sequence between them. */
  lemma {:induction false} CountComplement<T>(s: seq<T>, p: T -> bool, q: T -> bool)
    requires forall i :: 0 <= i < |s| ==> (q(s[i]) <==> !p(s[i]))
    ensures Count(s, p) + Count(s, q) == |s|
  {
    if s != [] {
      var n := |s| - 1;
      assert forall i :: 0 <= i < n ==> s[..n][i] == s[i];
      CountComplement(s[..n], p, q);
    }
  }

  /** A sequence in which exactly one position satisfies `p` counts one. */
  lemma CountSingle<T>(s: seq<T>, k: int, p: T -> bool)
    requires 0 <= k < |s| && p(s[k])
    requires forall j :: 0 <= j < |s| && j != k ==> !p(s[j])
    ensures Count(s, p) == 1
  {
    CountIsCardinality(s, p);
    assert Positions(s, p) == {k};
  }
}

=== FILE: effects.dfy ===
/** What follows the ball pass in the Play frame: the check for a lost
    ball, and the power-up pass that collects pickups and applies their
    effects. Power-up fall and paddle contact are geometry; they arrive as
    one `PowerupEvent` per slot. */
module Effects {
  import opened Config
  import opened Entities
  import opened Counting
  import opened Speed
  import opened PaddleControl
  import opened Slots
  import opened Worlds

  /** The world after a step that may end the game, and whether it did. */
  datatype LossCheck = LossCheck(world: World, over: bool)

  /** When no ball is left in play a life is lost and the combo ends. If no
      life remains the game is over; otherwise ball 0 is put back on a
      base-size paddle and the speed modifier is cleared. */
  function LoseBall(w: World): (r: LossCheck)
    requires Shaped(w)
    ensures Shaped(r.world)
    ensures Consistent(w) ==> Consistent(r.world)
    ensures AnyActive(w.balls) ==> r == LossCheck(w, false)
    ensures !AnyActive(w.balls) ==>
              && r.world.lives == w.lives - 1
              && r.world.combo == 0
              && (r.over <==> w.lives - 1 <= 0)
    ensures !AnyActive(w.balls) && r.over ==> r.world == w.(lives := w.lives - 1, combo := 0)
    ensures !AnyActive(w.balls) && !r.over ==>
              && r.world.balls == ResetBalls()
              && r.world.paddle == ResetPaddle()
              && r.world.speed == Normal
    ensures r.world.score == w.score && r.world.bricks == w.bricks
    ensures r.world.breakableLeft == w.breakableLeft && r.world.powerups == w.powerups
    ensures r.world.level == w.level
    ensures !r.over ==> AnyActive(r.world.balls)
    ensures !r.over && w.lives > 0 ==> r.world.lives > 0
  {
    if AnyActive(w.balls) then LossCheck(w, false)
    else
      var w1 := w.(lives := w.lives - 1, combo := 0);
      if w1.lives <= 0 then LossCheck(w1, true)
      else LossCheck(w1.(balls := ResetBalls(), paddle := ResetPaddle(), speed := Normal), false)
  }

  /** The effect of a collected power-up of type `kind`. Only DEATH can end
      the game, when it takes the last life. */
  function ApplyPower(w: World, kind: PowerType): (r: LossCheck)
    requires Shaped(w)
    ensures Shaped(r.world)
    ensures Consistent(w) ==> Consistent(r.world)
    ensures r.world.score == w.score && r.world.bricks == w.bricks && r.world.combo == w.combo
    ensures r.world.breakableLeft == w.breakableLeft && r.world.powerups == w.powerups
    ensures r.world.level == w.level
    ensures kind == Extend ==>
              r == LossCheck(w.(paddle := w.paddle.(target := ExtendedPaddleW)), false)
    ensures kind == Multiball ==>
              && r == LossCheck(w.(balls := ActivateIdle(w.balls)), false)
              && Count(r.world.balls, BallActive) == MaxBalls
    ensures kind == Slow ==>
              && r == LossCheck(w.(speed := Boost(-1)), false)
              && SpeedItemMult(r.world.speed.state) == 0.7
    ensures kind == Fast ==>
              && r == LossCheck(w.(speed := Boost(1)), false)
              && SpeedItemMult(r.world.speed.state) == 1.35
    ensures kind == Life ==> r == LossCheck(w.(lives := w.lives + 1), false)
    ensures kind == Death ==>
              && r.world == w.(lives := w.lives - 1)
              && (r.over <==> w.lives - 1 <= 0)
    ensures r.over ==> kind == Death
    ensures AnyActive(w.balls) ==> AnyActive(r.world.balls)
    ensures !r.over && w.lives > 0 ==> r.world.lives > 0
  {
    match kind
    case Extend => LossCheck(w.(paddle := w.paddle.(target := ExtendedPaddleW)), false)
    case Multiball =>
      var balls := ActivateIdle(w.balls);
      assert balls[0].active;
      LossCheck(w.(balls := balls), false)
    case Slow => LossCheck(w.(speed := Boost(-1)), false)
    case Life => LossCheck(w.(lives := w.lives + 1), false)
    case Fast => LossCheck(w.(speed := Boost(1)), false)
    case Death =>
      var w1 := w.(lives := w.lives - 1);
      LossCheck(w1, w1.lives <= 0)
  }

  /** What the geometry says about one power-up this frame: whether it fell
      below the field, and whether it touched the paddle. */
  datatype PowerupEvent = PowerupEvent(fallsOut: bool, caught: bool)

  /** The paddle collects power-up `p` this frame: it is falling, stays in
      the field and touches the paddle. */
  predicate Caught(p: Powerup, ev: PowerupEvent)
  {
    p.active && !ev.fallsOut && ev.caught
  }

  /** The world after the power-up pass, and how many pickups ended the game
      (each one sets the game-over screen and plays its sound). */
  datatype Collected = Collected(world: World, losses: nat)

  /** Power-up slot `i` for one frame: a fallen power-up is dropped without
      effect; a caught one is dropped and its effect applied once. */
  function UpdatePowerup(w: World, i: nat, ev: PowerupEvent): (r: LossCheck)
    requires Shaped(w) && i < |w.powerups|
    ensures Shaped(r.world)
    ensures Consistent(w) ==> Consistent(r.world)
    ensures r.world.score == w.score && r.world.bricks == w.bricks && r.world.combo == w.combo
    ensures r.world.breakableLeft == w.breakableLeft && r.world.level == w.level
    ensures !w.powerups[i].active ==> r == LossCheck(w, false)
    ensures w.powerups[i].active && (ev.fallsOut || ev.caught) ==> !r.world.powerups[i].active
    ensures w.powerups[i].active && !ev.fallsOut && ev.caught ==>
              r == ApplyPower(w.(powerups := w.powerups[i := w.powerups[i].(active := false)]),
                              w.powerups[i].kind)
    ensures w.powerups[i].active && (ev.fallsOut || !ev.caught) ==>
              r.world.lives == w.lives && r.world.balls == w.balls && r.world.speed == w.speed
              && r.world.paddle == w.paddle && !r.over
    ensures r.over ==> w.powerups[i].active && !ev.fallsOut && ev.caught && w.powerups[i].kind == Death
    ensures forall k :: 0 <= k < |w.powerups| && k != i ==> r.world.powerups[k] == w.powerups[k]
    ensures r.world.powerups[i].kind == w.powerups[i].kind
    ensures r.world.powerups[i].active <==> w.powerups[i].active && !ev.fallsOut && !ev.caught
    ensures !(w.powerups[i].active && !ev.fallsOut && ev.caught) ==> r.world.lives == w.lives
    ensures Sane(w.paddle) ==> Sane(r.world.paddle)
    ensures AnyActive(w.balls) ==> AnyActive(r.world.balls)
    ensures !r.over && w.lives > 0 ==> r.world.lives > 0
    // nothing caught: only the slot itself may change
    ensures !Caught(w.powerups[i], ev) ==> r.world == w.(powerups := r.world.powerups) && !r.over
    // no effect takes a ball out of play, undoes an extension or adds a life but LIFE
    ensures forall b :: 0 <= b < |w.balls| && w.balls[b].active ==> r.world.balls[b].active
    ensures w.paddle.target == ExtendedPaddleW ==> r.world.paddle.target == ExtendedPaddleW
    ensures !(Caught(w.powerups[i], ev) && w.powerups[i].kind == Life) ==> r.world.lives <= w.lives
    ensures Caught(w.powerups[i], ev) && w.powerups[i].kind == Multiball ==>
              forall b :: 0 <= b < |w.balls| ==> r.world.balls[b].active
    ensures Caught(w.powerups[i], ev) && w.powerups[i].kind == Extend ==>
              r.world.paddle.target == ExtendedPaddleW
    ensures Caught(w.powerups[i], ev) && w.powerups[i].kind == Death && w.lives <= 1 ==> r.over
  {
    var p := w.powerups[i];
    if !p.active then LossCheck(w, false)
    else if ev.fallsOut then LossCheck(w.(powerups := w.powerups[i := p.(active := false)]), false)
    else if ev.caught then ApplyPower(w.(powerups := w.powerups[i := p.(active := false)]), p.kind)
    else LossCheck(w, false)
  }

  /** The power-up pass from slot `i` on, in slot order. */
  function PowerupsFrom(w: World, evs: seq<PowerupEvent>, i: nat): (r: Collected)
    requires Shaped(w) && |evs| == |w.powerups| && i <= |w.powerups|
    ensures Shaped(r.world)
    ensures Consistent(w) ==> Consistent(r.world)
    ensures r.world.score == w.score && r.world.bricks == w.bricks && r.world.combo == w.combo
    ensures r.world.breakableLeft == w.breakableLeft && r.world.level == w.level
    // only a caught DEATH power-up can end the game
    ensures r.losses > 0 ==> exists k :: i <= k < |w.powerups| && Caught(w.powerups[k], evs[k])
                                         && w.powerups[k].kind == Death
    ensures forall k :: 0 <= k < i ==> r.world.powerups[k] == w.powerups[k]
    // a power-up that falls out or is caught frees its slot; the others stay as they were
    ensures forall k :: i <= k < |w.powerups| ==>
              && r.world.powerups[k].kind == w.powerups[k].kind
              && (r.world.powerups[k].active
                  <==> w.powerups[k].active && !evs[k].fallsOut && !evs[k].caught)
    ensures (forall k :: i <= k < |w.powerups| ==> !Caught(w.powerups[k], evs[k])) ==>
              r.world.lives == w.lives && r.losses == 0
    ensures Sane(w.paddle) ==> Sane(r.world.paddle)
    ensures AnyActive(w.balls) ==> AnyActive(r.world.balls)
    ensures r.losses == 0 && w.lives > 0 ==> r.world.lives > 0
    ensures (forall k :: i <= k < |w.powerups| ==> !Caught(w.powerups[k], evs[k])) ==>
              r.world == w.(powerups := r.world.powerups)
    ensures forall b :: 0 <= b < |w.balls| && w.balls[b].active ==> r.world.balls[b].active
    ensures w.paddle.target == ExtendedPaddleW ==> r.world.paddle.target == ExtendedPaddleW
    ensures (forall k :: i <= k < |w.powerups| && Caught(w.powerups[k], evs[k]) ==>
               w.powerups[k].kind != Life) ==> r.world.lives <= w.lives
    decreases |w.powerups| - i
  {
    if i == |w.powerups| then Collected(w, 0)
    else
      var step := UpdatePowerup(w, i, evs[i]);
      assert forall k :: i < k < |w.powerups| ==> step.world.powerups[k] == w.powerups[k];
      var rest := PowerupsFrom(step.world, evs, i + 1);
      Collected(rest.world, rest.losses + if step.over then 1 else 0)
  }

  /** A MULTIBALL caught anywhere in the pass fills every ball slot: later
      pickups never take a ball out of play. */
  lemma {:induction false} MultiballFillsBalls(w: World, evs: seq<PowerupEvent>, i: nat, k: nat)
    requires Shaped(w) && |evs| == |w.powerups| && i <= k < |w.powerups|
    requires Caught(w.powerups[k], evs[k]) && w.powerups[k].kind == Multiball
    ensures forall b :: 0 <= b < |w.balls| ==> PowerupsFrom(w, evs, i).world.balls[b].active
    decreases |w.powerups| - i
  {
    var step := UpdatePowerup(w, i, evs[i]);
    if k > i {
      assert step.world.powerups[k] == w.powerups[k];
      MultiballFillsBalls(step.world, evs, i + 1, k);
    }
  }

  /** An EXTEND caught anywhere in the pass leaves the paddle growing to the
      wide size: no later pickup shrinks it back. */
  lemma {:induction false} ExtendWidens(w: World, evs: seq<PowerupEvent>, i: nat, k: nat)
    requires Shaped(w) && |evs| == |w.powerups| && i <= k < |w.powerups|
    requires Caught(w.powerups[k], evs[k]) && w.powerups[k].kind == Extend
    ensures PowerupsFrom(w, evs, i).world.paddle.target == ExtendedPaddleW
    decreases |w.powerups| - i
  {
    var step := UpdatePowerup(w, i, evs[i]);
    if k > i {
      assert step.world.powerups[k] == w.powerups[k];
      ExtendWidens(step.world, evs, i + 1, k);
    }
  }

  /** A DEATH caught on the last life ends the game, unless a LIFE is caught
      in the same pass. */
  lemma {:induction false} DeathOnLastLifeEnds(w: World, evs: seq<PowerupEvent>, i: nat, k: nat)
    requires Shaped(w) && |evs| == |w.powerups| && i <= k < |w.powerups| && w.lives <= 1
    requires Caught(w.powerups[k], evs[k]) && w.powerups[k].kind == Death
    requires forall m :: i <= m < |w.powerups| && Caught(w.powerups[m], evs[m]) ==>
               w.powerups[m].kind != Life
    ensures PowerupsFrom(w, evs, i).losses > 0
    decreases |w.powerups| - i
  {
    var step := UpdatePowerup(w, i, evs[i]);
    if k > i {
      assert forall m :: i < m < |w.powerups| ==> step.world.powerups[m] == w.powerups[m];
      DeathOnLastLifeEnds(step.world, evs, i + 1, k);
    }
  }
}

=== FILE: entities.dfy ===
/** The game's constants and its entity records. Positions, velocities,
    radii and rectangles are left out: every geometric question the game asks
    of them arrives as an event (see the `Game` module's frame input). */
module Config {
  const Rows: nat := 8
  const Cols: nat := 12
  const MaxBricks: nat := Rows * Cols
  const MaxBalls: nat := 4
  const MaxPowerups: nat := 6

  const PlayX: real := 70.0
  const PlayW: real := 860.0

  const BasePaddleW: real := 120.0
  /** BASE_PADDLE_W * 1.6f, which rounds to exactly 192 in single precision. */
  const ExtendedPaddleW: real := 192.0
  const PaddleSpeed: real := 520.0
  /** Rate at which the paddle width eases toward its target, per second. */
  const EaseRate: real := 8.0

  const BallBaseSpeed: real := 430.0
  /** Seconds a SLOW or FAST pickup stays in effect. */
  const SpeedDuration: real := 10.0

  const StartLives: int := 3

  /** Points for destroying a brick, before the combo bonus. */
  const BreakPoints: nat := 100
  /** Extra points per combo level when destroying a brick. */
  const ComboBonus: nat := 30
  /** Points for a hit that leaves a breakable brick standing. */
  const DentPoints: nat := 40
  /** Points for every hit on a solid brick. */
  const SolidPoints: nat := 10
}

module Entities {
  datatype PowerType = Extend | Multiball | Slow | Life | Fast | Death

  datatype Brick = Brick(
    hp: int,
    maxHp: int,
    alive: bool,
    solid: bool,
    powerBrick: bool,
    powerType: PowerType)

  /** A ball slot; `stuck` means resting on the paddle before launch. */
  datatype Ball = Ball(active: bool, stuck: bool)

  /** A power-up slot; an inactive slot keeps the type it last carried. */
  datatype Powerup = Powerup(active: bool, kind: PowerType)

  /** Bricks that still have to be destroyed to clear the level. */
  predicate Breakable(b: Brick) { b.alive && !b.solid }

  predicate BallActive(b: Ball) { b.active }

  predicate BallIdle(b: Ball) { !b.active }

  predicate PowerupActive(p: Powerup) { p.active }
}

=== FILE: game.dfy ===
/** The top-level state machine: Menu, Play, Pause, Clear and Over, with
    one `Step` per rendered frame. */
module Game {
  import opened Config
  import opened Entities
  import opened Counting
  import opened Speed
  import opened PaddleControl
  import opened Layout
  import opened Slots
  import opened Worlds
  import opened Hits
  import opened Effects

  datatype Screen = Menu | Play | Pause | Clear | Over

  /** The sounds the core asks for. The hit, break and power-up sounds of
      the program are never loaded, so they can never play; only these two
      can. */
  datatype Sound = GameOverSound | GameClearSound

  datatype Session = Session(screen: Screen, selectedLevel: int, world: World)

  /** One frame of input: key edges and held keys, the frame time, and the
      geometric outcomes for each ball slot and each power-up slot. */
  datatype Input = Input(
    keyOne: bool,
    keyTwo: bool,
    keyThree: bool,
    up: bool,
    down: bool,
    enter: bool,
    pause: bool,
    launch: bool,
    left: bool,
    right: bool,
    dt: real,
    ballEvents: seq<BallEvents>,
    powerupEvents: seq<PowerupEvent>)

  /** One event record per slot. */
  predicate Fits(input: Input)
  {
    |input.ballEvents| == MaxBalls && |input.powerupEvents| == MaxPowerups
  }

  datatype Outcome = Outcome(next: Session, sounds: seq<Sound>)

  /** The session at program start: the menu, level 1 loaded, base paddle,
      ball 0 on the paddle, and zeroed power-up slots (whose type field
      reads as EXTEND, the first enumerator). */
  function Initial(): (s: Session)
    ensures s.screen == Menu && s.selectedLevel == 1
    ensures Consistent(s.world)
    ensures s.world.score == 0 && s.world.lives == StartLives && s.world.combo == 0
  {
    var layout := InitLevel(1);
    Session(Menu, 1, World(1, layout.bricks, layout.breakableLeft, 0, StartLives, 0,
                           Normal, ResetPaddle(), ResetBalls(),
                           seq(MaxPowerups, _ => Powerup(false, Extend))))
  }

  /** UP: the previous level, wrapping from 1 to 3. */
  function SelectUp(level: int): (r: int)
    ensures 1 <= level <= 3 ==> 1 <= r <= 3
    ensures 1 < level <= 3 ==> r == level - 1
    ensures level <= 1 ==> r == 3
  {
    if level - 1 < 1 then 3 else level - 1
  }

  /** DOWN: the next level, wrapping from 3 to 1. */
  function SelectDown(level: int): (r: int)
    ensures 1 <= level <= 3 ==> 1 <= r <= 3
    ensures 1 <= level < 3 ==> r == level + 1
    ensures level >= 3 ==> r == 1
  {
    if level + 1 > 3 then 1 else level + 1
  }

  /** UP and DOWN undo each other on the menu's levels. */
  lemma SelectUpDownInverse(level: int)
    requires 1 <= level <= 3
    ensures SelectDown(SelectUp(level)) == level
    ensures SelectUp(SelectDown(level)) == level
  {
  }

  /** Three presses of UP, or of DOWN, come back to the same level. */
  lemma SelectionCycles(level: int)
    requires 1 <= level <= 3
    ensures SelectUp(SelectUp(SelectUp(level))) == level
    ensures SelectDown(SelectDown(SelectDown(level))) == level
  {
  }

  /** The menu's level selection for one frame, keys read in the order
      1, 2, 3, UP, DOWN. */
  function MenuSelect(selected: int, input: Input): (r: int)
    ensures 1 <= selected <= 3 ==> 1 <= r <= 3
    ensures !input.keyOne && !input.keyTwo && !input.keyThree && !input.up && !input.down
            ==> r == selected
    ensures input.keyOne && !input.keyTwo && !input.keyThree && !input.up && !input.down
            ==> r == 1
    ensures input.keyTwo && !input.keyThree && !input.up && !input.down ==> r == 2
    ensures input.keyThree && !input.up && !input.down ==> r == 3
    ensures !input.keyOne && !input.keyTwo && !input.keyThree && input.up && !input.down
            ==> r == SelectUp(selected)
    ensures !input.keyOne && !input.keyTwo && !input.keyThree && !input.up && input.down
            ==> r == SelectDown(selected)
    // UP and DOWN in the same frame cancel out
    ensures (1 <= selected <= 3 && !input.keyOne && !input.keyTwo && !input.keyThree
             && input.up && input.down) ==> r == selected
  {
    var s1 := if input.keyOne then 1 else selected;
    var s2 := if input.keyTwo then 2 else s1;
    var s3 := if input.keyThree then 3 else s2;
    var s4 := if input.up then SelectUp(s3) else s3;
    if input.down then SelectDown(s4) else s4
  }

  /** ENTER on the menu: a new game on `level` with the score, lives, combo,
      speed modifier and paddle reset, the level's bricks loaded, ball 0 on
      the paddle and every power-up slot emptied. */
  function StartGame(level: int, w: World): (s: Session)
    requires |w.powerups| == MaxPowerups
    ensures s.screen == Play && s.selectedLevel == level && s.world.level == level
    ensures s.world.score == 0 && s.world.lives == StartLives && s.world.combo == 0
    ensures s.world.speed == Normal && s.world.paddle == ResetPaddle()
    ensures s.world.bricks == InitLevel(level).bricks
    ensures s.world.breakableLeft == |BreakableCells(Table(level))|
    ensures Count(s.world.balls, BallActive) == 1 && s.world.balls[0].stuck
    ensures Consistent(s.world)
    ensures forall k :: 0 <= k < MaxPowerups ==>
              !s.world.powerups[k].active && s.world.powerups[k].kind == w.powerups[k].kind
  {
    var layout := InitLevel(level);
    var idle := seq(MaxPowerups, k requires 0 <= k < MaxPowerups => w.powerups[k].(active := false));
    Session(Play, level, World(level, layout.bricks, layout.breakableLeft, 0, StartLives, 0,
                               Normal, ResetPaddle(), ResetBalls(), idle))
  }

  /** Every ball in play at the start of the frame is, or is launched, in
      flight and falls out: the frame's ball pass leaves none active. */
  predicate AllBallsLost(balls: seq<Ball>, input: Input)
  {
    forall k :: 0 <= k < |balls| && k < |input.ballEvents| && balls[k].active ==>
      (input.launch || !balls[k].stuck) && input.ballEvents[k].fallsOut
  }

  /** Ball `b` moves in this frame's ball pass: it is in flight, or rests on
      the paddle and the launch key sends it off. */
  predicate Moves(b: Ball, launch: bool)
  {
    b.active && (launch || !b.stuck)
  }

  /** The paddle step (only while no ball is stuck) and the launch key. */
  function Prepare(s: Session, input: Input): (w: World)
    requires Shaped(s.world) && Fits(input)
    ensures Shaped(w)
    ensures Consistent(s.world) ==> Consistent(w)
    ensures w == s.world.(paddle := w.paddle, balls := w.balls)
    ensures AnyStuck(s.world.balls) ==> w.paddle == s.world.paddle
    ensures !AnyStuck(s.world.balls) ==>
              w.paddle == MovePaddle(s.world.paddle, input.left, input.right, input.dt)
    ensures forall k :: 0 <= k < MaxBalls ==>
              && w.balls[k].active == s.world.balls[k].active
              && (InFlight(w.balls[k]) <==> Moves(s.world.balls[k], input.launch))
    ensures input.launch ==> !AnyStuck(w.balls)
    ensures !input.launch ==> w.balls == s.world.balls
  {
    var w := s.world;
    var w1 := if AnyStuck(w.balls) then w
              else w.(paddle := MovePaddle(w.paddle, input.left, input.right, input.dt));
    if input.launch then w1.(balls := LaunchStuck(w1.balls)) else w1
  }

  /** The first part of a Play frame: the paddle (only while no ball is
      stuck), the launch key and the ball pass. */
  function BallPhase(s: Session, input: Input): (w: World)
    requires Shaped(s.world) && Fits(input)
    ensures Shaped(w)
    ensures Consistent(s.world) ==> Consistent(w)
    ensures w.level == s.world.level && w.lives == s.world.lives && w.speed == s.world.speed
    ensures w.score >= s.world.score
    ensures AnyStuck(s.world.balls) ==> w.paddle == s.world.paddle
    ensures !AnyStuck(s.world.balls) ==>
              w.paddle == MovePaddle(s.world.paddle, input.left, input.right, input.dt)
    ensures !AnyActive(w.balls) <==> AllBallsLost(s.world.balls, input)
  {
    BallsFrom(Prepare(s, input), input.ballEvents, 0)
  }

  /** What the first part of a Play frame does to the bricks: destroyed
      bricks stay destroyed, a brick changes only if it was standing and a
      moving ball overlapped it, and if every moving ball touches neither the
      paddle nor a standing brick, nothing is scored or released. */
  lemma BallPhaseBricks(s: Session, input: Input)
    requires Shaped(s.world) && Fits(input)
    ensures var w := BallPhase(s, input);
            forall j :: 0 <= j < MaxBricks && w.bricks[j].alive ==> s.world.bricks[j].alive
    ensures var w := BallPhase(s, input);
            forall j :: 0 <= j < MaxBricks && w.bricks[j] != s.world.bricks[j] ==>
              && s.world.bricks[j].alive
              && exists k :: 0 <= k < MaxBalls && Moves(s.world.balls[k], input.launch)
                             && j in input.ballEvents[k].overlaps
    ensures var w := BallPhase(s, input);
            (forall k :: 0 <= k < MaxBalls && Moves(s.world.balls[k], input.launch) ==>
               Quiet(s.world.bricks, input.ballEvents[k])) ==>
              && w.bricks == s.world.bricks && w.breakableLeft == s.world.breakableLeft
              && w.score == s.world.score && w.combo == s.world.combo
              && w.powerups == s.world.powerups
  {
    BallsFromBricks(Prepare(s, input), input.ballEvents, 0);
  }

  /** One game-over sound for each of `n` game-ending events in a frame. */
  function GameOverSounds(n: nat): (r: seq<Sound>)
    ensures |r| == n
    ensures forall k :: 0 <= k < n ==> r[k] == GameOverSound
    ensures GameOverSound in r <==> n > 0
    ensures GameClearSound !in r
  {
    var r := seq(n, _ => GameOverSound);
    assert n > 0 ==> r[0] == GameOverSound;
    r
  }

  /** One Play frame, in program order: the pause key (the rest of the frame
      still runs), the paddle (only while no ball is stuck), the launch key,
      the ball pass, the lost-ball check, the power-up pass, the speed
      countdown, and the level-clear check. Each later screen assignment
      overwrites an earlier one. */
  function PlayFrame(s: Session, input: Input): (o: Outcome)
    requires s.screen == Play && Shaped(s.world) && Fits(input)
    ensures o.next.selectedLevel == s.selectedLevel
    ensures Shaped(o.next.world)
    ensures o.next.screen in {Play, Pause, Clear, Over}
    ensures o.next.world.breakableLeft <= 0 <==> o.next.screen == Clear
    ensures o.next.world.score >= s.world.score
    ensures Consistent(s.world) ==> Consistent(o.next.world)
    // losing every ball on the last life ends the game, unless the level is cleared
    ensures AllBallsLost(s.world.balls, input) && s.world.lives <= 1 ==>
              o.next.screen in {Over, Clear} && GameOverSound in o.sounds
    // with no power-up caught, a life goes exactly when every ball is lost
    ensures (forall k :: 0 <= k < MaxPowerups ==> !input.powerupEvents[k].caught) ==>
              o.next.world.lives
              == s.world.lives - (if AllBallsLost(s.world.balls, input) then 1 else 0)
  {
    FinishFrame(s, BallPhase(s, input), input)
  }

  /** The rest of a Play frame once the ball pass has left world `w3`: the
      lost-ball check, the power-up pass, the speed countdown and the
      level-clear check, with the screen the pause key chose as the start. */
  function FinishFrame(s: Session, w3: World, input: Input): (o: Outcome)
    requires Shaped(w3) && Fits(input)
    ensures o.next.selectedLevel == s.selectedLevel
    ensures Shaped(o.next.world)
    ensures o.next.screen in {Play, Pause, Clear, Over}
    ensures o.next.world.breakableLeft <= 0 <==> o.next.screen == Clear
    ensures GameClearSound in o.sounds <==> o.next.screen == Clear
    ensures o.next.screen == Over ==> GameOverSound in o.sounds
    ensures GameOverSound in o.sounds ==> o.next.screen in {Over, Clear}
    // the pause key only chooses between Play and Pause
    ensures o.next.screen == Pause <==> input.pause && o.next.screen !in {Over, Clear}
  {
    var screen0 := if input.pause then Pause else Play;
    var loss := LoseBall(w3);
    var screen1 := if loss.over then Over else screen0;
    var picked := PowerupsFrom(loss.world, input.powerupEvents, 0);
    var screen2 := if picked.losses > 0 then Over else screen1;
    var w4 := picked.world.(speed := Tick(picked.world.speed, input.dt));
    var cleared := w4.breakableLeft <= 0;
    var screen3 := if cleared then Clear else screen2;
    var sounds := GameOverSounds((if loss.over then 1 else 0) + picked.losses)
                  + (if cleared then [GameClearSound] else []);
    Outcome(Session(screen3, s.selectedLevel, w4), sounds)
  }

  /** One frame of the whole game. */
  function Step(s: Session, input: Input): (o: Outcome)
    requires Shaped(s.world) && Fits(input)
    ensures Shaped(o.next.world)
    ensures s.screen == Menu ==> o.next.screen in {Menu, Play}
    ensures s.screen == Pause ==> o.next.screen in {Pause, Play}
    ensures s.screen == Clear ==> o.next.screen in {Clear, Menu}
    ensures s.screen == Over ==> o.next.screen in {Over, Menu}
    ensures s.screen == Play ==> o.next.screen in {Play, Pause, Clear, Over}
    ensures s.screen != Play ==> o.sounds == []
    ensures s.screen == Menu ==> o.next.selectedLevel == MenuSelect(s.selectedLevel, input)
    ensures s.screen == Menu && !input.enter ==>
              o.next.screen == Menu && o.next.world == s.world
    ensures s.screen == Pause ==>
              o.next.world == s.world && (o.next.screen == Play <==> input.pause)
    ensures s.screen in {Over, Clear} ==>
              o.next.world == s.world && (o.next.screen == Menu <==> input.enter)
  {
    match s.screen
    case Menu =>
      var selected := MenuSelect(s.selectedLevel, input);
      if input.enter then Outcome(StartGame(selected, s.world), [])
      else Outcome(s.(selectedLevel := selected), [])
    case Pause =>
      Outcome(if input.pause then s.(screen := Play) else s, [])
    case Over =>
      Outcome(if input.enter then s.(screen := Menu) else s, [])
    case Clear =>
      Outcome(if input.enter then s.(screen := Menu) else s, [])
    case Play =>
      PlayFrame(s, input)
  }
}

=== FILE: hits.dfy ===
/** The ball pass of the Play frame: each ball in flight may fall out, bounce
    off the paddle and hit one brick. The geometry behind these outcomes is
    not modelled; it arrives as one `BallEvents` record per ball slot. */
module Hits {
  import opened Config
  import opened Entities
  import opened Counting
  import opened Options
  import opened Slots
  import opened Worlds

  /** What the geometry says about one ball this frame, after it moved:
      whether it left the bottom of the field, whether it touched the paddle
      while moving down, and which brick indices its circle overlaps. */
  datatype BallEvents = BallEvents(fallsOut: bool, hitsPaddle: bool, overlaps: set<int>)

  /** A ball that moves this frame: in play and not resting on the paddle. */
  predicate InFlight(b: Ball)
  {
    b.active && !b.stuck
  }

  /** Brick `j` is standing and the ball overlaps it. */
  predicate Strikes(bricks: seq<Brick>, overlaps: set<int>, j: int)
  {
    0 <= j < |bricks| && bricks[j].alive && j in overlaps
  }

  /** `j` is the brick the ball resolves: the lowest-index standing brick it
      overlaps. */
  predicate IsFirstHit(bricks: seq<Brick>, overlaps: set<int>, j: int)
  {
    && Strikes(bricks, overlaps, j)
    && forall k :: 0 <= k < j ==> !(bricks[k].alive && k in overlaps)
  }

  /** The ball neither touches the paddle nor overlaps a standing brick. */
  predicate Quiet(bricks: seq<Brick>, ev: BallEvents)
  {
    !ev.hitsPaddle && forall j :: 0 <= j < |bricks| ==> !Strikes(bricks, ev.overlaps, j)
  }

  /** The brick scan: the first standing, overlapped brick at or after
      `from`. */
  function FirstHit(bricks: seq<Brick>, overlaps: set<int>, from: nat): (r: Option<nat>)
    requires from <= |bricks|
    ensures r.Some? ==> from <= r.value < |bricks| && bricks[r.value].alive && r.value in overlaps
    ensures r.Some? ==> forall k :: from <= k < r.value ==> !(bricks[k].alive && k in overlaps)
    ensures r.None? ==> forall k :: from <= k < |bricks| ==> !(bricks[k].alive && k in overlaps)
    decreases |bricks| - from
  {
    if from == |bricks| then None
    else if bricks[from].alive && from in overlaps then Some(from)
    else FirstHit(bricks, overlaps, from + 1)
  }

  /** A scan from the start finds exactly the first hit. */
  lemma FirstHitIsFirst(bricks: seq<Brick>, overlaps: set<int>)
    ensures forall j :: IsFirstHit(bricks, overlaps, j) <==> FirstHit(bricks, overlaps, 0) == Some(j)
  {
  }

  /** The outcome of the ball hitting standing brick `b`. */
  function HitBrick(w: World, b: nat): (r: World)
    requires Shaped(w) && b < |w.bricks| && w.bricks[b].alive
    ensures Shaped(r)
    ensures r.level == w.level && r.lives == w.lives && r.speed == w.speed
    ensures r.paddle == w.paddle && r.balls == w.balls
    ensures forall j :: 0 <= j < |w.bricks| && j != b ==> r.bricks[j] == w.bricks[j]
    ensures r.score > w.score
    // a solid brick stands, scores a flat amount and keeps the combo
    ensures w.bricks[b].solid ==> r == w.(score := w.score + SolidPoints)
    // a breakable brick on its last hit point is destroyed
    ensures !w.bricks[b].solid && w.bricks[b].hp <= 1 ==>
              && !r.bricks[b].alive
              && r.breakableLeft == w.breakableLeft - 1
              && r.score == w.score + BreakPoints + ComboBonus * w.combo
              && r.combo == w.combo + 1
              && r.powerups == (if w.bricks[b].powerBrick
                                then SpawnPowerup(w.powerups, w.bricks[b].powerType)
                                else w.powerups)
    // a breakable brick with hit points to spare loses one and stands
    ensures !w.bricks[b].solid && w.bricks[b].hp > 1 ==>
              && r.bricks[b] == w.bricks[b].(hp := w.bricks[b].hp - 1)
              && r.score == w.score + DentPoints
              && r.combo == w.combo && r.breakableLeft == w.breakableLeft
              && r.powerups == w.powerups
    ensures Consistent(w) ==> Consistent(r)
  {
    var brick := w.bricks[b];
    if brick.solid then
      w.(score := w.score + SolidPoints)
    else
      var hit := brick.(hp := brick.hp - 1);
      if hit.hp <= 0 then
        var dead := hit.(alive := false);
        CountUpdate(w.bricks, b, dead, Breakable);
        w.(bricks := w.bricks[b := dead],
           breakableLeft := w.breakableLeft - 1,
           score := w.score + BreakPoints + ComboBonus * w.combo,
           combo := w.combo + 1,
           powerups := if brick.powerBrick then SpawnPowerup(w.powerups, brick.powerType)
                       else w.powerups)
      else
        CountUpdate(w.bricks, b, hit, Breakable);
        w.(bricks := w.bricks[b := hit], score := w.score + DentPoints)
  }

  /** In a consistent world every breakable brick dies on its first hit. */
  lemma OneHitKills(w: World, b: nat)
    requires Consistent(w) && b < |w.bricks| && w.bricks[b].alive && !w.bricks[b].solid
    ensures !HitBrick(w, b).bricks[b].alive
    ensures HitBrick(w, b).breakableLeft == w.breakableLeft - 1
  {
  }

  /** The brick resolution of one ball: the first standing brick it
      overlaps is hit, and only that one. */
  function Resolve(w: World, overlaps: set<int>): (r: World)
    requires Shaped(w)
    ensures Shaped(r)
    ensures Consistent(w) ==> Consistent(r)
    ensures r.level == w.level && r.lives == w.lives && r.speed == w.speed
    ensures r.paddle == w.paddle && r.balls == w.balls
    ensures r.score >= w.score
    ensures forall j :: 0 <= j < |w.bricks| && r.bricks[j] != w.bricks[j] ==>
              IsFirstHit(w.bricks, overlaps, j)
    ensures forall j :: 0 <= j < |w.bricks| && r.bricks[j].alive ==> w.bricks[j].alive
    ensures Count(r.powerups, PowerupActive) >= Count(w.powerups, PowerupActive)
    ensures (forall j :: !IsFirstHit(w.bricks, overlaps, j)) ==> r == w
    ensures forall j :: IsFirstHit(w.bricks, overlaps, j) ==>
              var kill := !w.bricks[j].solid && w.bricks[j].hp <= 1;
              && (w.bricks[j].solid ==> r.score == w.score + SolidPoints && r.combo == w.combo)
              && (kill ==> && !r.bricks[j].alive
                           && r.score == w.score + BreakPoints + ComboBonus * w.combo
                           && r.combo == w.combo + 1)
              && (!w.bricks[j].solid && w.bricks[j].hp > 1 ==>
                    r.score == w.score + DentPoints && r.combo == w.combo)
              && r.powerups == (if kill && w.bricks[j].powerBrick
                                then SpawnPowerup(w.powerups, w.bricks[j].powerType)
                                else w.powerups)
  {
    FirstHitIsFirst(w.bricks, overlaps);
    match FirstHit(w.bricks, overlaps, 0)
    case None => w
    case Some(b) => HitBrick(w, b)
  }

  /** The tests before the brick scan for ball `i`: leaving the bottom
      switches the ball off, and a paddle bounce ends the combo. */
  function Bounce(w: World, i: nat, ev: BallEvents): (r: World)
    requires Shaped(w) && i < |w.balls|
    ensures Shaped(r)
    ensures Consistent(w) ==> Consistent(r)
    ensures r == w.(balls := r.balls, combo := r.combo)
    ensures forall k :: 0 <= k < |w.balls| && k != i ==> r.balls[k] == w.balls[k]
    ensures r.balls[i] == (if ev.fallsOut then w.balls[i].(active := false) else w.balls[i])
    ensures r.combo == (if ev.hitsPaddle then 0 else w.combo)
  {
    var w1 := if ev.fallsOut then w.(balls := w.balls[i := w.balls[i].(active := false)]) else w;
    if ev.hitsPaddle then w1.(combo := 0) else w1
  }

  /** Ball `i` for one frame. A ball that is not in play, or rests on the
      paddle, changes nothing. A ball in flight may leave the bottom (it is
      switched off, and the paddle and brick tests still run for that frame),
      may bounce off the paddle (the combo resets), and then resolves at
      most the first standing brick it overlaps. */
  function UpdateBall(w: World, i: nat, ev: BallEvents): (r: World)
    requires Shaped(w) && i < |w.balls|
    ensures Shaped(r)
    ensures Consistent(w) ==> Consistent(r)
    ensures r.level == w.level && r.lives == w.lives && r.speed == w.speed && r.paddle == w.paddle
    ensures r.score >= w.score
    ensures !InFlight(w.balls[i]) ==> r == w
    ensures forall k :: 0 <= k < |w.balls| && k != i ==> r.balls[k] == w.balls[k]
    ensures r.balls[i].stuck == w.balls[i].stuck
    ensures r.balls[i].active <==> w.balls[i].active && (w.balls[i].stuck || !ev.fallsOut)
    // only the first standing brick the ball overlaps can change, and none comes back
    ensures forall j :: 0 <= j < |w.bricks| && r.bricks[j] != w.bricks[j] ==>
              InFlight(w.balls[i]) && IsFirstHit(w.bricks, ev.overlaps, j)
    ensures forall j :: 0 <= j < |w.bricks| && r.bricks[j].alive ==> w.bricks[j].alive
    ensures forall j :: InFlight(w.balls[i]) && IsFirstHit(w.bricks, ev.overlaps, j)
                        && !w.bricks[j].solid && w.bricks[j].hp <= 1
                        ==> !r.bricks[j].alive
    ensures Count(r.powerups, PowerupActive) >= Count(w.powerups, PowerupActive)
    // a paddle bounce ends the combo; only a brick killed after it restarts it
    ensures InFlight(w.balls[i]) && ev.hitsPaddle ==>
              r.combo <= 1 && (r.combo == 1 ==> r.score == w.score + BreakPoints)
    // the points of the resolved brick, at the combo left by the paddle test,
    // and the power-up a killed power brick releases
    ensures forall j :: InFlight(w.balls[i]) && IsFirstHit(w.bricks, ev.overlaps, j) ==>
              var c := if ev.hitsPaddle then 0 else w.combo;
              var kill := !w.bricks[j].solid && w.bricks[j].hp <= 1;
              && (w.bricks[j].solid ==> r.score == w.score + SolidPoints && r.combo == c)
              && (kill ==> r.score == w.score + BreakPoints + ComboBonus * c && r.combo == c + 1)
              && (!w.bricks[j].solid && w.bricks[j].hp > 1 ==>
                    r.score == w.score + DentPoints && r.combo == c)
              && r.powerups == (if kill && w.bricks[j].powerBrick
                                then SpawnPowerup(w.powerups, w.bricks[j].powerType)
                                else w.powerups)
    // with no standing brick overlapped, only the paddle test touches the combo
    ensures InFlight(w.balls[i]) && (forall j :: !IsFirstHit(w.bricks, ev.overlaps, j)) ==>
              && r.score == w.score && r.bricks == w.bricks && r.powerups == w.powerups
              && r.combo == (if ev.hitsPaddle then 0 else w.combo)
    // a ball that touches neither the paddle nor a standing brick changes only itself
    ensures Quiet(w.bricks, ev) ==> r == w.(balls := r.balls)
  {
    if !InFlight(w.balls[i]) then w
    else Resolve(Bounce(w, i, ev), ev.overlaps)
  }

  /** The ball pass from slot `i` on, in slot order. */
  function BallsFrom(w: World, evs: seq<BallEvents>, i: nat): (r: World)
    requires Shaped(w) && |evs| == |w.balls| && i <= |w.balls|
    ensures Shaped(r)
    ensures Consistent(w) ==> Consistent(r)
    ensures r.level == w.level && r.lives == w.lives && r.speed == w.speed && r.paddle == w.paddle
    ensures r.score >= w.score
    ensures forall k :: 0 <= k < |w.balls| ==>
              r.balls[k].stuck == w.balls[k].stuck && (r.balls[k].active ==> w.balls[k].active)
    ensures forall k :: 0 <= k < |w.balls| && w.balls[k].active && w.balls[k].stuck ==>
              r.balls[k] == w.balls[k]
    ensures Count(r.powerups, PowerupActive) >= Count(w.powerups, PowerupActive)
    ensures forall k :: 0 <= k < i ==> r.balls[k] == w.balls[k]
    // a ball in flight that falls out is gone after the pass; every other keeps its state
    ensures forall k :: i <= k < |w.balls| ==>
              (r.balls[k].active <==> w.balls[k].active && (w.balls[k].stuck || !evs[k].fallsOut))
    decreases |w.balls| - i
  {
    if i == |w.balls| then w
    else
      BallsFrom(UpdateBall(w, i, evs[i]), evs, i + 1)
  }

  /** What the ball pass does to the bricks: destroyed bricks stay destroyed,
      a brick changes only if it was standing and a ball in flight overlapped
      it, and balls that touch neither the paddle nor a standing brick leave
      everything but themselves as it was. */
  lemma {:induction false} BallsFromBricks(w: World, evs: seq<BallEvents>, i: nat)
    requires Shaped(w) && |evs| == |w.balls| && i <= |w.balls|
    ensures var r := BallsFrom(w, evs, i);
            forall j :: 0 <= j < |w.bricks| && r.bricks[j].alive ==> w.bricks[j].alive
    ensures var r := BallsFrom(w, evs, i);
            forall j :: 0 <= j < |w.bricks| && r.bricks[j] != w.bricks[j] ==>
              && w.bricks[j].alive
              && exists k :: i <= k < |w.balls| && InFlight(w.balls[k]) && j in evs[k].overlaps
    ensures (forall k :: i <= k < |w.balls| && InFlight(w.balls[k]) ==> Quiet(w.bricks, evs[k])) ==>
              BallsFrom(w, evs, i) == w.(balls := BallsFrom(w, evs, i).balls)
    decreases |w.balls| - i
  {
    if i < |w.balls| {
      var step := UpdateBall(w, i, evs[i]);
      BallsFromBricks(step, evs, i + 1);
      var r := BallsFrom(step, evs, i + 1);
      forall j | 0 <= j < |w.bricks| && r.bricks[j] != w.bricks[j]
        ensures exists k :: i <= k < |w.balls| && InFlight(w.balls[k]) && j in evs[k].overlaps
      {
        if step.bricks[j] != w.bricks[j] {
          assert InFlight(w.balls[i]) && j in evs[i].overlaps;
        } else {
          var k :| i + 1 <= k < |w.balls| && InFlight(step.balls[k]) && j in evs[k].overlaps;
          assert step.balls[k] == w.balls[k];
        }
      }
    }
  }
}

=== FILE: laws.dfy ===
/** Properties of whole frames: the invariant every reachable session keeps,
    and how the screens, the score, the sounds and the paddle behave across
    one `Step`. */
module GameLaws {
  import opened Config
  import opened Entities
  import opened Speed
  import opened PaddleControl
  import opened Layout
  import opened Slots
  import opened Worlds
  import opened Effects
  import opened Game

  /** What holds of every session the game reaches: a menu level in range,
      a consistent world, and, while a level is being played or is paused,
      a life left, a breakable brick left and a ball in play. */
  predicate Valid(s: Session)
  {
    && 1 <= s.selectedLevel <= 3
    && 1 <= s.world.level <= 3
    && Consistent(s.world)
    && (s.screen == Play || s.screen == Pause ==>
          && s.world.lives > 0
          && s.world.breakableLeft > 0
          && AnyActive(s.world.balls))
  }

  lemma InitialValid()
    ensures Valid(Initial())
  {
  }

  /** A Play frame that stays on Play or Pause has lost no game and cleared
      no level, so the level can go on. */
  lemma PlayFrameKeepsPlayable(s: Session, input: Input)
    requires Valid(s) && s.screen == Play && Fits(input)
    ensures var n := PlayFrame(s, input).next;
            (n.screen == Play || n.screen == Pause) ==>
              n.world.lives > 0 && n.world.breakableLeft > 0 && AnyActive(n.world.balls)
  {
  }

  /** `Step` keeps `Valid`: the invariant holds in every reachable session. */
  lemma StepPreservesValid(s: Session, input: Input)
    requires Valid(s) && Fits(input)
    ensures Valid(Step(s, input).next)
  {
    match s.screen
    case Menu =>
      if input.enter {
        var level := MenuSelect(s.selectedLevel, input);
        EveryLevelHasBreakableBricks(level);
      }
    case Pause =>
    case Over =>
    case Clear =>
    case Play =>
      PlayFrameKeepsPlayable(s, input);
  }

  /** The pause key does not stop the frame it is pressed in: the world and
      the sounds are the same with or without it, and only a frame that
      would have stayed on Play shows the pause screen instead. */
  lemma PauseStillRunsFrame(s: Session, input: Input)
    requires s.screen == Play && Shaped(s.world) && Fits(input)
    ensures var paused := PlayFrame(s, input.(pause := true));
            var running := PlayFrame(s, input.(pause := false));
            && paused.next.world == running.next.world
            && paused.sounds == running.sounds
            && (running.next.screen == Play <==> paused.next.screen == Pause)
            && (running.next.screen != Play ==> paused.next.screen == running.next.screen)
  {
    // the ball pass does not read the pause key
    var w3 := BallPhase(s, input.(pause := false));
    assert BallPhase(s, input.(pause := true)) == w3;
    FinishFrameIgnoresPause(s, w3, input);
  }

  /** After the ball pass the pause key only picks the starting screen: the
      world and the sounds are the same with or without it. */
  lemma FinishFrameIgnoresPause(s: Session, w3: World, input: Input)
    requires Shaped(w3) && Fits(input)
    ensures var paused := FinishFrame(s, w3, input.(pause := true));
            var running := FinishFrame(s, w3, input.(pause := false));
            && paused.next.world == running.next.world
            && paused.sounds == running.sounds
            && (running.next.screen == Play <==> paused.next.screen == Pause)
            && (running.next.screen != Play ==> paused.next.screen == running.next.screen)
  {
  }

  /** A paused game is frozen: only the pause key changes anything, and it
      only switches back to Play. */
  lemma PauseFreezesWorld(s: Session, input: Input)
    requires s.screen == Pause && Shaped(s.world) && Fits(input)
    ensures Step(s, input).next.world == s.world
    ensures Step(s, input).next.screen == Play <==> input.pause
  {
  }

  /** The score only moves up, except that ENTER on the menu starts a new
      game from zero. */
  lemma ScoreNeverDecreases(s: Session, input: Input)
    requires Shaped(s.world) && Fits(input)
    requires !(s.screen == Menu && input.enter)
    ensures Step(s, input).next.world.score >= s.world.score
  {
  }

  /** When the last life goes in a Play frame the game is over, unless the
      same frame broke the last breakable brick: the level-clear check runs
      last and wins. */
  lemma NoLivesEndsTheGame(s: Session, input: Input)
    requires Valid(s) && s.screen == Play && Fits(input)
    ensures var o := Step(s, input);
            o.next.world.lives <= 0 ==>
              o.next.screen == (if o.next.world.breakableLeft <= 0 then Clear else Over)
  {
  }

  /** With no ball lost and no power-up caught, the speed modifier only
      counts down in a Play frame. */
  lemma QuietFrameOnlyTicksSpeed(s: Session, input: Input)
    requires s.screen == Play && Shaped(s.world) && Fits(input)
    requires forall k :: 0 <= k < MaxPowerups ==> !input.powerupEvents[k].caught
    requires !AllBallsLost(s.world.balls, input)
    ensures PlayFrame(s, input).next.world.speed == Tick(s.world.speed, input.dt)
  {
  }

  /** A DEATH power-up caught on the last life ends the game, unless a LIFE
      is caught in the same frame or the level is cleared. `w3` is any world
      the ball pass can leave: a Play frame is `FinishFrame` applied to
      `BallPhase`, which keeps the lives, and the slots are those after the
      ball pass, which may have released new power-ups. */
  lemma DeathOnLastLifeEndsGame(s: Session, w3: World, input: Input, k: nat)
    requires Shaped(w3) && Fits(input) && w3.lives <= 1 && k < MaxPowerups
    requires Caught(w3.powerups[k], input.powerupEvents[k]) && w3.powerups[k].kind == Death
    requires forall m :: 0 <= m < MaxPowerups && Caught(w3.powerups[m], input.powerupEvents[m]) ==>
               w3.powerups[m].kind != Life
    ensures var o := FinishFrame(s, w3, input);
            o.next.screen in {Over, Clear} && GameOverSound in o.sounds
  {
    var loss := LoseBall(w3);
    if !loss.over {
      DeathOnLastLifeEnds(loss.world, input.powerupEvents, 0, k);
    }
  }

  /** The level-clear sound plays exactly in the frame that shows the clear
      screen, and only as the last sound of that frame. */
  lemma ClearSoundMarksClear(s: Session, input: Input)
    requires s.screen == Play && Shaped(s.world) && Fits(input)
    ensures var o := Step(s, input);
            && (GameClearSound in o.sounds <==> o.next.screen == Clear)
            && (o.next.screen == Clear ==> o.sounds[|o.sounds| - 1] == GameClearSound)
  {
  }

  /** A frame that ends on the game-over screen plays the game-over sound,
      and one that plays it ends the game unless it also clears the level. */
  lemma OverSoundMarksOver(s: Session, input: Input)
    requires s.screen == Play && Shaped(s.world) && Fits(input)
    ensures var o := Step(s, input);
            && (o.next.screen == Over ==> GameOverSound in o.sounds)
            && (GameOverSound in o.sounds ==> o.next.screen in {Over, Clear})
  {
  }

  /** With frames no longer than 1/8 s the paddle keeps a width between the
      base and extended sizes and stays inside the field. */
  lemma PaddleStaysSane(s: Session, input: Input)
    requires Shaped(s.world) && Fits(input) && Sane(s.world.paddle)
    requires 0.0 <= input.dt && EaseRate * input.dt <= 1.0
    ensures Sane(Step(s, input).next.world.paddle)
  {
    if s.screen == Play {
      MoveKeepsSane(s.world.paddle, input.left, input.right, input.dt);
      var w3 := BallPhase(s, input);
      assert Sane(w3.paddle);
      assert Sane(LoseBall(w3).world.paddle);
    }
  }

  /** ENTER on the menu starts the highlighted level with a fresh game. */
  lemma EnterStartsSelectedLevel(s: Session, input: Input)
    requires s.screen == Menu && Shaped(s.world) && Fits(input) && input.enter
    ensures var n := Step(s, input).next;
            && n.screen == Play
            && n.world.level == MenuSelect(s.selectedLevel, input)
            && n.world.score == 0 && n.world.lives == StartLives
            && n.world.bricks == InitLevel(n.world.level).bricks
  {
  }
}

=== FILE: layout.dfy ===
/** The level layout decoder: one of three compiled-in 8x12 code tables is
    turned into 96 brick records, and the breakable bricks are counted.
    Codes: 0 empty, 1 plain, 2..7 power bricks, 8 solid. */
module Layout {
  import opened Config
  import opened Entities
  import opened Counting

  /** The level-1 table: row r, column c holds the code of the brick at
      index r * Cols + c. */
  const Level1Table: seq<seq<int>> := [
    [0, 0, 1, 2, 1, 1, 3, 1, 2, 1, 0, 0],
    [0, 1, 1, 1, 5, 1, 1, 1, 5, 1, 1, 0],
    [1, 2, 1, 1, 1, 6, 1, 1, 1, 1, 2, 1],
    [1, 1, 1, 3, 1, 1, 1, 1, 3, 1, 1, 1],
    [1, 1, 2, 1, 5, 1, 1, 1, 5, 2, 1, 1],
    [0, 1, 6, 1, 1, 1, 1, 1, 1, 1, 1, 0],
    [0, 0, 1, 1, 2, 1, 1, 2, 1, 1, 0, 0],
    [0, 0, 0, 1, 1, 1, 1, 1, 1, 0, 0, 0]
  ]

  const Level2Table: seq<seq<int>> := [
    [0, 0, 2, 1, 1, 3, 1, 1, 2, 1, 0, 0],
    [0, 1, 1, 5, 4, 1, 1, 4, 5, 7, 1, 0],
    [1, 1, 1, 2, 1, 6, 1, 1, 2, 1, 7, 1],
    [1, 2, 1, 1, 1, 1, 1, 1, 1, 1, 2, 1],
    [1, 1, 1, 3, 5, 1, 1, 5, 3, 1, 1, 1],
    [0, 1, 7, 1, 2, 1, 1, 2, 1, 1, 1, 0],
    [0, 0, 1, 4, 1, 1, 1, 1, 4, 1, 0, 0],
    [0, 0, 0, 1, 1, 1, 1, 1, 1, 0, 0, 0]
  ]

  const Level3Table: seq<seq<int>> := [
    [2, 1, 1, 1, 3, 1, 1, 3, 1, 1, 1, 2],
    [1, 1, 1, 4, 5, 1, 1, 5, 4, 7, 1, 1],
    [1, 7, 1, 1, 8, 8, 8, 8, 1, 1, 2, 1],
    [1, 1, 1, 1, 2, 1, 1, 2, 1, 1, 1, 1],
    [1, 1, 2, 1, 6, 4, 4, 6, 1, 2, 7, 1],
    [1, 8, 1, 3, 1, 5, 5, 1, 3, 1, 8, 1],
    [4, 8, 1, 1, 7, 1, 1, 2, 1, 1, 8, 1],
    [1, 1, 2, 1, 1, 1, 1, 1, 1, 2, 4, 1]
  ]

  /** A table of Rows rows of Cols codes. */
  predicate IsGrid(t: seq<seq<int>>)
  {
    |t| == Rows && forall row :: 0 <= row < |t| ==> |t[row]| == Cols
  }

  /** The codes a table may hold: 0 through 8. */
  predicate KnownCodes(t: seq<seq<int>>)
    requires IsGrid(t)
  {
    forall row, col :: 0 <= row < Rows && 0 <= col < Cols ==> 0 <= t[row][col] <= 8
  }

  /** All three compiled-in tables are 8x12 grids of known codes. */
  lemma TablesWellFormed(t: seq<seq<int>>)
    requires t == Level1Table || t == Level2Table || t == Level3Table
    ensures IsGrid(t) && KnownCodes(t)
  {
    forall row | 0 <= row < Rows
      ensures |t[row]| == Cols
    {
      assert row == 0 || row == 1 || row == 2 || row == 3
          || row == 4 || row == 5 || row == 6 || row == 7;
    }
    forall row, col | 0 <= row < Rows && 0 <= col < Cols
      ensures 0 <= t[row][col] <= 8
    {
      assert row == 0 || row == 1 || row == 2 || row == 3
          || row == 4 || row == 5 || row == 6 || row == 7;
      assert col == 0 || col == 1 || col == 2 || col == 3 || col == 4 || col == 5
          || col == 6 || col == 7 || col == 8 || col == 9 || col == 10 || col == 11;
    }
  }

  /** The table a level loads: levels 1 and 2 have their own, every other
      level number (including 0 and negatives) loads the third. */
  function Table(level: int): (t: seq<seq<int>>)
    ensures IsGrid(t) && KnownCodes(t)
  {
    var t := if level == 1 then Level1Table
             else if level == 2 then Level2Table
             else Level3Table;
    TablesWellFormed(t);
    t
  }

  /** The code in row `row`, column `col` of a level's table. */
  function Code(level: int, row: int, col: int): (code: int)
    requires 0 <= row < Rows && 0 <= col < Cols
    ensures 0 <= code <= 8
  {
    Table(level)[row][col]
  }

  /** The table code that stands for each power type. */
  function PowerCode(t: PowerType): (code: int)
    ensures 2 <= code <= 7
  {
    match t
    case Multiball => 2
    case Extend => 3
    case Death => 4
    case Slow => 5
    case Life => 6
    case Fast => 7
  }

  /** Every power code names exactly one power type. */
  lemma PowerCodeInjective(a: PowerType, b: PowerType)
    ensures PowerCode(a) == PowerCode(b) ==> a == b
  {
  }

  /** One cell of the table as a brick. A brick that is not a power brick
      still carries the MULTIBALL tag, as the decoder writes it first. */
  function DecodeCell(code: int): (b: Brick)
    ensures b.alive <==> code > 0
    ensures b.solid <==> code == 8
    ensures b.powerBrick <==> 2 <= code <= 7
    ensures b.powerBrick ==> PowerCode(b.powerType) == code
    ensures !b.powerBrick ==> b.powerType == Multiball
    ensures b.hp == 1 && b.maxHp == 1
  {
    var plain := Brick(1, 1, code > 0, false, false, Multiball);
    if code == 2 then plain.(powerBrick := true, powerType := Multiball)
    else if code == 3 then plain.(powerBrick := true, powerType := Extend)
    else if code == 4 then plain.(powerBrick := true, powerType := Death)
    else if code == 5 then plain.(powerBrick := true, powerType := Slow)
    else if code == 6 then plain.(powerBrick := true, powerType := Life)
    else if code == 7 then plain.(powerBrick := true, powerType := Fast)
    else if code == 8 then plain.(solid := true)
    else plain
  }

  /** The code a freshly loaded brick was decoded from: the inverse of
      `DecodeCell` on the codes 0..8. */
  function EncodeCell(b: Brick): int
  {
    if !b.alive then 0
    else if b.solid then 8
    else if b.powerBrick then PowerCode(b.powerType)
    else 1
  }

  /** The bricks `DecodeCell` can produce. */
  predicate FreshBrick(b: Brick)
  {
    && b.hp == 1 && b.maxHp == 1
    && !(b.solid && b.powerBrick)
    && (!b.alive ==> !b.solid && !b.powerBrick)
    && (!b.powerBrick ==> b.powerType == Multiball)
  }

  /** Decoding a known code and encoding the brick gives the code back. */
  lemma DecodeThenEncode(code: int)
    requires 0 <= code <= 8
    ensures FreshBrick(DecodeCell(code))
    ensures EncodeCell(DecodeCell(code)) == code
  {
  }

  /** Encoding a fresh brick and decoding the code gives the brick back. */
  lemma EncodeThenDecode(b: Brick)
    requires FreshBrick(b)
    ensures DecodeCell(EncodeCell(b)) == b
  {
  }

  datatype LevelLayout = LevelLayout(bricks: seq<Brick>, breakableLeft: int)

  /** The code of the cell the decoder stores at brick index `i`. */
  function CellAt(t: seq<seq<int>>, i: int): int
    requires IsGrid(t) && 0 <= i < MaxBricks
  {
    t[i / Cols][i % Cols]
  }

  /** The decoder's pass over the first `n` cells of grid `t`, row by row:
      each cell becomes a brick, and the counter goes up for each alive
      brick that is not solid. */
  function DecodePrefix(t: seq<seq<int>>, n: nat): (r: LevelLayout)
    requires IsGrid(t) && n <= MaxBricks
    ensures |r.bricks| == n
    ensures forall i :: 0 <= i < n ==> r.bricks[i] == DecodeCell(CellAt(t, i))
    ensures r.breakableLeft == Count(r.bricks, Breakable)
  {
    if n == 0 then LevelLayout([], 0)
    else
      var prev := DecodePrefix(t, n - 1);
      var b := DecodeCell(CellAt(t, n - 1));
      var bricks := prev.bricks + [b];
      assert bricks[..n - 1] == prev.bricks;
      LevelLayout(bricks, prev.breakableLeft + (if b.alive && !b.solid then 1 else 0))
  }

  /** The brick indices whose cell yields a breakable brick: the non-empty,
      non-solid cells. */
  ghost function BreakableCells(t: seq<seq<int>>): set<int>
    requires IsGrid(t)
  {
    set i | 0 <= i < MaxBricks && CellAt(t, i) > 0 && CellAt(t, i) != 8
  }

  /** Loads a level: the brick at index row * Cols + col is the decoded cell
      (row, col), and the breakable counter is the number of non-empty,
      non-solid cells of the table. */
  function InitLevel(level: int): (r: LevelLayout)
    ensures |r.bricks| == MaxBricks
    ensures forall row, col :: 0 <= row < Rows && 0 <= col < Cols ==>
              r.bricks[row * Cols + col] == DecodeCell(Code(level, row, col))
    ensures r.breakableLeft == |BreakableCells(Table(level))|
    ensures r.breakableLeft == Count(r.bricks, Breakable)
  {
    var t := Table(level);
    var r := DecodePrefix(t, MaxBricks);
    CountIsCardinality(r.bricks, Breakable);
    BreakablePositions(t, r.bricks);
    forall row, col | 0 <= row < Rows && 0 <= col < Cols
      ensures r.bricks[row * Cols + col] == DecodeCell(Code(level, row, col))
    {
      CellIndex(row, col);
    }
    r
  }

  /** Brick index `row * Cols + col` is cell (row, col) of the grid. */
  lemma CellIndex(row: int, col: int)
    requires 0 <= row < Rows && 0 <= col < Cols
    ensures (row * Cols + col) / Cols == row && (row * Cols + col) % Cols == col
  {
  }

  /** The breakable positions of a decoded grid are its non-empty, non-solid
      cells. */
  lemma BreakablePositions(t: seq<seq<int>>, bricks: seq<Brick>)
    requires IsGrid(t) && |bricks| == MaxBricks
    requires forall i :: 0 <= i < MaxBricks ==> bricks[i] == DecodeCell(CellAt(t, i))
    ensures Positions(bricks, Breakable) == BreakableCells(t)
  {
  }

  /** Every brick of a loaded level encodes back to its table code. */
  lemma LoadedBricksEncodeTheirCodes(level: int, row: int, col: int)
    requires 0 <= row < Rows && 0 <= col < Cols
    ensures FreshBrick(InitLevel(level).bricks[row * Cols + col])
    ensures EncodeCell(InitLevel(level).bricks[row * Cols + col]) == Code(level, row, col)
  {
  }

  /** Any level other than 1 or 2 loads the third table. */
  lemma OtherLevelsLoadThirdTable(level: int)
    requires level != 1 && level != 2
    ensures InitLevel(level) == InitLevel(3)
  {
  }

  /** Every level starts with at least one breakable brick, so a freshly
      started game is never cleared before play. */
  lemma EveryLevelHasBreakableBricks(level: int)
    ensures InitLevel(level).breakableLeft > 0
  {
    var r := InitLevel(level);
    if level == 1 {
      assert Level1Table[0][2] == 1;
    } else if level == 2 {
      assert Level2Table[0][2] == 2;
    } else {
      assert Level3Table[0][2] == 1;
    }
    assert r.bricks[0 * Cols + 2] == DecodeCell(Code(level, 0, 2));
    assert Breakable(r.bricks[2]);
    CountNone(r.bricks, Breakable);
  }
}

=== FILE: motion.dfy ===
/** The speed tables and the timed speed modifier set by SLOW and FAST
    pickups. Ball positions are not modelled, so the speed a ball would move
    at is computed but only its bounds and ordering are stated. */
module Speed {
  import opened Config

  /** Ball speed multiplier per level: 0.85 up to level 1, 0.95 at level 2,
      1.05 from level 3 on. */
  function LevelSpeedMult(level: int): (m: real)
    ensures m == 0.85 <==> level <= 1
    ensures m == 0.95 <==> level == 2
    ensures m == 1.05 <==> level >= 3
  {
    if level <= 1 then 0.85
    else if level == 2 then 0.95
    else 1.05
  }

  /** Ball speed multiplier by the sign of the speed state: 0.7 when slowed,
      1.35 when sped up, 1 otherwise. */
  function SpeedItemMult(speedState: int): (m: real)
    ensures m == 0.7 <==> speedState < 0
    ensures m == 1.35 <==> speedState > 0
    ensures m == 1.0 <==> speedState == 0
  {
    if speedState < 0 then 0.7
    else if speedState > 0 then 1.35
    else 1.0
  }

  /** Later levels are never slower. */
  lemma LevelSpeedMonotone(a: int, b: int)
    requires a <= b
    ensures LevelSpeedMult(a) <= LevelSpeedMult(b)
  {
  }

  /** A higher speed state is never slower. */
  lemma SpeedItemMonotone(a: int, b: int)
    requires a <= b
    ensures SpeedItemMult(a) <= SpeedItemMult(b)
  {
  }

  /** The distance per second an unstuck ball covers. */
  function BallSpeed(level: int, speedState: int): (v: real)
    ensures BallBaseSpeed * 0.85 * 0.7 <= v <= BallBaseSpeed * 1.05 * 1.35
  {
    BallBaseSpeed * LevelSpeedMult(level) * SpeedItemMult(speedState)
  }

  /** The ball speed grows with the level and with the speed state. */
  lemma BallSpeedMonotone(level: int, level': int, state: int, state': int)
    requires level <= level' && state <= state'
    ensures BallSpeed(level, state) <= BallSpeed(level', state')
  {
  }

  /** The signed speed state (-1 slow, 0 normal, +1 fast) and the seconds
      it has left. */
  datatype SpeedStatus = SpeedStatus(state: int, timer: real)

  const Normal: SpeedStatus := SpeedStatus(0, 0.0)

  /** A modified speed always has time left; the timer never goes negative. */
  predicate SpeedValid(s: SpeedStatus)
  {
    -1 <= s.state <= 1 && s.timer >= 0.0 && (s.state != 0 ==> s.timer > 0.0)
  }

  /** The status a SLOW (`dir` = -1) or FAST (`dir` = +1) pickup installs,
      replacing whatever was in effect. */
  function Boost(dir: int): (s: SpeedStatus)
    requires dir == -1 || dir == 1
    ensures SpeedValid(s) && s.state == dir && s.timer == SpeedDuration
  {
    SpeedStatus(dir, SpeedDuration)
  }

  /** One frame of the countdown: a running timer loses `dt`, and once it
      reaches zero or below the modifier is cleared. */
  function Tick(s: SpeedStatus, dt: real): (r: SpeedStatus)
    ensures SpeedValid(s) ==> SpeedValid(r)
    ensures s.timer > 0.0 && s.timer - dt <= 0.0 ==> r == Normal
    ensures s.timer > 0.0 && s.timer - dt > 0.0 ==> r == SpeedStatus(s.state, s.timer - dt)
    ensures s.timer <= 0.0 ==> r == s
    ensures r.state == 0 || r.state == s.state
  {
    if s.timer > 0.0 then
      var t := s.timer - dt;
      if t <= 0.0 then Normal else SpeedStatus(s.state, t)
    else s
  }

  /** The frame on which the timer crosses zero puts the multiplier back to
      exactly 1. */
  lemma ExpiryRestoresNormalSpeed(s: SpeedStatus, dt: real, level: int)
    requires s.timer > 0.0 && s.timer <= dt
    ensures SpeedItemMult(Tick(s, dt).state) == 1.0
    ensures BallSpeed(level, Tick(s, dt).state) == BallBaseSpeed * LevelSpeedMult(level)
  {
  }

  /** `n` frames of length `dt`. */
  function TickN(s: SpeedStatus, dt: real, n: nat): SpeedStatus
    decreases n
  {
    if n == 0 then s else TickN(Tick(s, dt), dt, n - 1)
  }

  /** A modifier runs out after at most ceil(timer / dt) frames of length
      `dt`: no speed effect outlives its timer. */
  lemma {:induction false} ExpiresWithin(s: SpeedStatus, dt: real, n: nat)
    requires SpeedValid(s) && dt > 0.0 && n as real * dt >= s.timer
    ensures TickN(s, dt, n) == Normal
    decreases n
  {
    if n == 0 {
      assert s.timer <= 0.0;
    } else {
      var s' := Tick(s, dt);
      if s.timer > 0.0 && s.timer - dt > 0.0 {
        assert s'.timer == s.timer - dt;
        assert (n - 1) as real * dt >= s'.timer;
      } else {
        assert s' == Normal;
      }
      ExpiresWithin(s', dt, n - 1);
    }
  }

  /** Once normal, the countdown stays normal. */
  lemma {:induction false} NormalIsStable(dt: real, n: nat)
    ensures TickN(Normal, dt, n) == Normal
  {
    if n > 0 {
      NormalIsStable(dt, n - 1);
    }
  }
}

/** The paddle: its x position, its width, and the width it eases toward. */
module PaddleControl {
  import opened Config

  /** `v` limited to [lo, hi]; when lo > hi the lower bound is checked first
      and anything at or above it yields `hi`. */
  function ClampFloat(v: real, lo: real, hi: real): (r: real)
    ensures lo <= hi ==> lo <= r <= hi
    ensures lo <= v <= hi ==> r == v
    ensures r == v || r == lo || r == hi
  {
    if v < lo then lo
    else if v > hi then hi
    else v
  }

  /** Clamping preserves order. */
  lemma ClampMonotone(v: real, v': real, lo: real, hi: real)
    requires lo <= hi && v <= v'
    ensures ClampFloat(v, lo, hi) <= ClampFloat(v', lo, hi)
  {
  }

  /** Clamping twice is clamping once. */
  lemma ClampIdempotent(v: real, lo: real, hi: real)
    requires lo <= hi
    ensures ClampFloat(ClampFloat(v, lo, hi), lo, hi) == ClampFloat(v, lo, hi)
  {
  }

  datatype Paddle = Paddle(x: real, width: real, target: real)

  /** The paddle lies inside the play field. */
  predicate InField(p: Paddle)
  {
    PlayX <= p.x <= PlayX + PlayW - p.width
  }

  /** The widths the game can produce: between base and extended, with a
      target that is one of the two. */
  predicate Sane(p: Paddle)
  {
    && BasePaddleW <= p.width <= ExtendedPaddleW
    && (p.target == BasePaddleW || p.target == ExtendedPaddleW)
    && InField(p)
  }

  /** The paddle after a level start or a lost life: base width, centred. */
  function ResetPaddle(): (p: Paddle)
    ensures Sane(p)
    ensures p.width == BasePaddleW && p.target == BasePaddleW
    ensures p.x + p.width / 2.0 == PlayX + PlayW / 2.0
  {
    Paddle(PlayX + PlayW * 0.5 - BasePaddleW * 0.5, BasePaddleW, BasePaddleW)
  }

  /** The net horizontal intent of the two movement keys. */
  function MoveIntent(left: bool, right: bool): (m: real)
    ensures m == -1.0 <==> left && !right
    ensures m == 1.0 <==> right && !left
    ensures m == 0.0 <==> left == right
  {
    (if left then -1.0 else 0.0) + (if right then 1.0 else 0.0)
  }

  /** One frame of paddle control (run only while no ball is stuck): move by
      the key intent, clamp, ease the width toward the target, clamp again. */
  function MovePaddle(p: Paddle, left: bool, right: bool, dt: real): (r: Paddle)
    ensures r.target == p.target
    ensures r.width <= PlayW ==> InField(r)
    ensures left == right && p.width == p.target && InField(p) ==> r == p
    // at a settled width the keys move the paddle their way, by 520 * dt
    // when that stays inside the field
    ensures p.width == p.target && InField(p) && 0.0 <= dt && left && !right ==> r.x <= p.x
    ensures p.width == p.target && InField(p) && 0.0 <= dt && right && !left ==> r.x >= p.x
    ensures var x := p.x + MoveIntent(left, right) * PaddleSpeed * dt;
            p.width == p.target && PlayX <= x <= PlayX + PlayW - p.width ==> r == p.(x := x)
  {
    var x := ClampFloat(p.x + MoveIntent(left, right) * PaddleSpeed * dt,
                        PlayX, PlayX + PlayW - p.width);
    var w := Ease(p.width, p.target, dt);
    Paddle(ClampFloat(x, PlayX, PlayX + PlayW - w), w, p.target)
  }

  /** The width after one frame of easing toward `target`. */
  function Ease(width: real, target: real, dt: real): (r: real)
    ensures 0.0 <= dt && EaseRate * dt <= 1.0 && width <= target ==> width <= r <= target
    ensures 0.0 <= dt && EaseRate * dt <= 1.0 && target <= width ==> target <= r <= width
    ensures width == target ==> r == target
    ensures dt == 0.0 ==> r == width
  {
    Lerp(width, target, EaseRate * dt)
  }

  /** The point a fraction `k` of the way from `a` to `t`; for `k` in
      [0, 1] it lies between the two. */
  function Lerp(a: real, t: real, k: real): (r: real)
    ensures 0.0 <= k <= 1.0 && a <= t ==> a <= r <= t
    ensures 0.0 <= k <= 1.0 && t <= a ==> t <= r <= a
  {
    MulNonNegative(t - a, k);
    MulNonNegative(a - t, k);
    MulNonNegative(t - a, 1.0 - k);
    MulNonNegative(a - t, 1.0 - k);
    a + (t - a) * k
  }

  /** The product of two non-negative numbers is not negative. */
  lemma MulNonNegative(x: real, y: real)
    ensures x >= 0.0 && y >= 0.0 ==> x * y >= 0.0
  {
  }

  /** For frames no longer than 1 / EaseRate the width moves toward the
      target and never past it. */
  lemma EaseNeverOvershoots(p: Paddle, left: bool, right: bool, dt: real)
    requires 0.0 <= dt && EaseRate * dt <= 1.0
    ensures p.width <= p.target ==> p.width <= MovePaddle(p, left, right, dt).width <= p.target
    ensures p.target <= p.width ==> p.target <= MovePaddle(p, left, right, dt).width <= p.width
  {
  }

  /** A longer frame makes the width overshoot: at dt = 1/4 a base paddle
      easing toward the extended width ends wider than the target. */
  lemma LongFrameOvershoots()
    ensures var p := Paddle(440.0, BasePaddleW, ExtendedPaddleW);
            MovePaddle(p, false, false, 0.25).width > p.target
  {
  }

  /** For frames no longer than 1 / EaseRate the paddle stays sane. */
  lemma MoveKeepsSane(p: Paddle, left: bool, right: bool, dt: real)
    requires Sane(p) && 0.0 <= dt && EaseRate * dt <= 1.0
    ensures Sane(MovePaddle(p, left, right, dt))
  {
  }
}

=== FILE: options.dfy ===
/** The optional value returned by the "first slot found" searches: the
    first idle power-up slot and the first brick a ball resolves. */
module Options {
  datatype Option<+T> = None | Some(value: T)
}

=== FILE: slots.dfy ===
/** The fixed slot arrays: four ball slots and six power-up slots, each with
    an `active` flag. */
module Slots {
  import opened Config
  import opened Entities
  import opened Counting
  import opened Options

  /** Some ball is in play. */
  predicate AnyActive(balls: seq<Ball>)
  {
    exists i :: 0 <= i < |balls| && balls[i].active
  }

  /** Some ball in play rests on the paddle. */
  predicate AnyStuck(balls: seq<Ball>)
  {
    exists i :: 0 <= i < |balls| && balls[i].active && balls[i].stuck
  }

  /** The lowest-index inactive power-up slot at or after `from`. */
  function FirstInactive(pool: seq<Powerup>, from: nat): (r: Option<nat>)
    requires from <= |pool|
    ensures r.Some? ==> from <= r.value < |pool| && !pool[r.value].active
    ensures r.Some? ==> forall j :: from <= j < r.value ==> pool[j].active
    ensures r.None? ==> forall j :: from <= j < |pool| ==> pool[j].active
    decreases |pool| - from
  {
    if from == |pool| then None
    else if !pool[from].active then Some(from)
    else FirstInactive(pool, from + 1)
  }

  /** A falling power-up of type `kind` takes the lowest-index free slot;
      when all slots are busy nothing happens. */
  function SpawnPowerup(pool: seq<Powerup>, kind: PowerType): (r: seq<Powerup>)
    ensures |r| == |pool|
    ensures (forall j :: 0 <= j < |pool| ==> pool[j].active) ==> r == pool
    ensures forall k :: 0 <= k < |pool| && !pool[k].active
                        && (forall j :: 0 <= j < k ==> pool[j].active)
                        ==> r == pool[k := Powerup(true, kind)]
    ensures Count(r, PowerupActive)
            == if Count(pool, PowerupActive) == |pool| then |pool|
               else Count(pool, PowerupActive) + 1
  {
    CountAll(pool, PowerupActive);
    match FirstInactive(pool, 0)
    case None => pool
    case Some(k) =>
      CountUpdate(pool, k, Powerup(true, kind), PowerupActive);
      pool[k := Powerup(true, kind)]
  }

  /** The ball slots after a level start or a lost life: only ball 0 is in
      play, resting on the paddle. */
  function ResetBalls(): (r: seq<Ball>)
    ensures |r| == MaxBalls
    ensures r[0].active && r[0].stuck
    ensures forall i :: 0 < i < |r| ==> !r[i].active && !r[i].stuck
    ensures Count(r, BallActive) == 1
    ensures AnyActive(r) && AnyStuck(r)
  {
    var r := seq(MaxBalls, i => if i == 0 then Ball(true, true) else Ball(false, false));
    CountSingle(r, 0, BallActive);
    r
  }

  /** MULTIBALL: every free ball slot gets a ball launched from the paddle;
      balls already in play are left alone. */
  function ActivateIdle(balls: seq<Ball>): (r: seq<Ball>)
    ensures |r| == |balls|
    ensures forall i :: 0 <= i < |balls| && balls[i].active ==> r[i] == balls[i]
    ensures forall i :: 0 <= i < |balls| && !balls[i].active ==> r[i].active && !r[i].stuck
    ensures Count(r, BallActive) == |balls|
    ensures Count(r, BallActive) - Count(balls, BallActive) == Count(balls, BallIdle)
  {
    var r := seq(|balls|, i requires 0 <= i < |balls| =>
                   if balls[i].active then balls[i] else Ball(true, false));
    CountAll(r, BallActive);
    CountComplement(balls, BallActive, BallIdle);
    r
  }

  /** The launch key: every ball resting on the paddle is sent off. */
  function LaunchStuck(balls: seq<Ball>): (r: seq<Ball>)
    ensures |r| == |balls|
    ensures forall i :: 0 <= i < |balls| ==> r[i].active == balls[i].active
    ensures forall i :: 0 <= i < |balls| && r[i].active ==> !r[i].stuck
    ensures forall i :: 0 <= i < |balls| && !balls[i].active ==> r[i] == balls[i]
    ensures !AnyStuck(r)
  {
    seq(|balls|, i requires 0 <= i < |balls| =>
          if balls[i].active && balls[i].stuck then balls[i].(stuck := false) else balls[i])
  }
}

=== FILE: world.dfy ===
/** The gameplay data of one session: everything the Play frame reads and
    writes except the screen the state machine is on. */
module Worlds {
  import opened Config
  import opened Entities
  import opened Counting
  import opened Speed
  import opened PaddleControl

  datatype World = World(
    level: int,
    bricks: seq<Brick>,
    breakableLeft: int,
    score: nat,
    lives: int,
    combo: nat,
    speed: SpeedStatus,
    paddle: Paddle,
    balls: seq<Ball>,
    powerups: seq<Powerup>)

  /** The slot arrays have their fixed sizes. */
  predicate Shaped(w: World)
  {
    |w.bricks| == MaxBricks && |w.balls| == MaxBalls && |w.powerups| == MaxPowerups
  }

  /** Every brick has one hit point at most, and a standing brick has it. */
  predicate BricksIntact(bricks: seq<Brick>)
  {
    forall i :: 0 <= i < |bricks| ==>
      bricks[i].maxHp == 1 && (bricks[i].alive ==> bricks[i].hp == 1)
  }

  /** The invariants the game keeps: the breakable counter equals the number
      of standing non-solid bricks, and a speed modifier always has time
      left. */
  predicate Consistent(w: World)
  {
    && Shaped(w)
    && w.breakableLeft == Count(w.bricks, Breakable)
    && BricksIntact(w.bricks)
    && SpeedValid(w.speed)
  }
}
